=== FILE: README.md ===
# cmnd-lite importer: a verified model of the projection engine

The importer reads workflow-engine records from eight append-only streams
(`zeebe:PROCESS`, `zeebe:JOB`, ...) and projects each event into one or two
rows of a relational database. Every row write is an
*upsert-if-not-older*: `INSERT ... ON CONFLICT DO UPDATE SET ... WHERE
updated <= excluded.updated`. A new identity gets the whole row. A stored row
with a newer timestamp is left as it is. Otherwise the SET columns and
`updated` are rewritten, and the insert-only columns and `created` are kept.
On top of this, the process and process-instance handlers backfill display
names and embedded forms from the stored BPMN definition, with no timestamp
check.

This project models that engine in Dafny:

- `Schema`: the tables as maps from row identity to `Row(inserted, rewritten,
  created, updated)`, plus the generic `Upsert`. Upsert takes the INSERT and
  the SET parameter lists separately, as the SQL does.
- `Bpmn`: the resolution of a definition document. It is absent, unparsable
  or parsed; the XML parser is a parameter. It also holds the name and form
  writes made from the document.
- `Handlers`: the eight event handlers, each returning `Handled(store)` or
  `Faulted(store)`. Statements run before a raise stay committed
  (autocommit), so a faulted store keeps them.
- `Replay`: what happens when an event is delivered again or events arrive
  out of order.
- `Subscriptions`: the subscribed streams and the category each stream
  name yields.
- `Router`: dispatch by category, as the source does it, and a corrected
  dispatch whose variable handler stores the value on conflict.
- `Consumer`: the read loop. It skips records that are not events, moves
  the per-stream cursors, and stops a read at the first fault.
- `Text`: decimal rendering of integers (`str`), `maybe_str`, and the
  string slicing the source uses.

The main results are these:

- Every handler except the variable handler absorbs a redelivery of the same
  event. The variable handler as written does not: on a conflict it stores the
  variable's name in `value` (see Findings). So the dispatcher absorbs a
  redelivery in every category but `variable`. With the variable handler
  corrected, it absorbs one in every category. This holds in the model, where
  a NULL flow scope conflicts like any other value (see Left out).
- Two events on one job with different timestamps leave the same SET columns
  and `updated` in either delivery order. When the job row already existed,
  the two stores are identical. For a new row, the insert-only columns and
  `created` come from whichever event arrives first.
- Each handler touches only its own tables.
- The consumer's cursors sit on the last item it fully handled. When an
  item's records fault, the read stops, that stream's cursor stays on the
  item before it, and the next poll resumes from those cursors and the
  store the faulted read left (`Consumer.HandleItemsStopsAtFault`,
  `Consumer.FaultedReadCursor`, `Consumer.RunAppend`).

Three behaviours of the code worth stating:

- `get_bpmn` lets a parse error propagate, so the handler faults after its
  row write has been committed.
- The `completed` column of a process instance is not sticky. A later
  non-completing event clears it (`Replay.InstanceCompletionCanBeCleared`).
- The definition cache is created anew on every call, so it caches nothing.
  It is not modelled.

## Model

| member | source | states |
|---|---|---|
| Text.Str | importer.py:298-300 | `str(n)` of an integer is never empty, so `cond and str(ts) or None` yields the timestamp whenever `cond` holds |
| Text.StrRoundTrip | importer.py:238 | parsing the decimal text of any integer gives that integer back |
| Text.StrInjective | importer.py:501-504 | two integers have equal decimal texts only when they are equal, so comparing `str(scopeKey)` with `str(processInstanceKey)` compares the keys |
| Text.MaybeStr | importer.py:32-35 | `maybe_str` is None exactly for the sentinel -1; otherwise it is text that parses back to the argument |
| Text.AfterLastColon | importer.py:354-356 | `rsplit(":", 1)[-1]`: a colon-free suffix of the text, either the whole text or one that starts right after a colon |
| Text.AfterFirstColon | importer.py:593 | `split(":", 1)[-1]`: the whole text when it has no colon, otherwise the part after the first colon |
| Schema.Upsert | importer.py:231-236 | the conditional upsert: a new key gets the INSERT values and `created = updated = ts`; a stored row newer than `ts` is unchanged; otherwise only the SET columns and `updated` change; no other key changes |
| Schema.GuardedWriteAbsorbs | importer.py:235 | after a guarded write at `ts`, the row for that key absorbs the same write again |
| Schema.UpsertStable | importer.py:235 | a write whose row already holds these SET columns at this timestamp, or a newer row, leaves the table as it is |
| Schema.UpsertConflictOnly | importer.py:231-236 | two upserts that differ only in the SET list give the same keys and rows, except for the SET columns of a row that was updated in place |
| Schema.UpsertIdempotent | importer.py:231-236 | applying the same upsert twice gives the same table as applying it once |
| Schema.UpsertLaterWins | importer.py:235 | two upserts on one key with different timestamps leave the later one's SET columns and timestamp in either order, unless the stored row is newer than both, and the same table when the key existed |
| Bpmn.GetBpmnIgnoresNames | importer.py:21-29 | the definition lookup reads only the resource, so process-name writes do not change what it finds |
| Bpmn.SetProcessName | importer.py:256-264 | one name UPDATE per process element: the last element's name (possibly NULL) stays; no other row and no other column changes; a missing row is not created |
| Bpmn.SetProcessNameIdempotent | importer.py:256-264 | writing the same process names again changes nothing |
| Bpmn.Writable | importer.py:265-278 | the forms stored are the prefix before the first form without text, where the NOT NULL insert raises |
| Bpmn.UpsertForms | importer.py:265-278 | the form loop ends without a fault exactly when every form has text |
| Bpmn.UpsertFormsKeys | importer.py:265-278 | the form table afterwards has the old ids plus the ids of the stored prefix |
| Bpmn.UpsertFormsKeepsOthers | importer.py:265-278 | form rows whose id is not in the stored prefix are unchanged |
| Bpmn.UpsertFormsStored | importer.py:265-278 | each stored id keeps the definition it was first inserted under and holds the text of the last form with that id |
| Bpmn.UpsertFormsContents | importer.py:265-278 | the whole form table after the loop: the keys, the untouched rows and the stored rows together |
| Bpmn.UpsertFormsIdempotent | importer.py:265-278 | storing the same forms again gives the same table and the same outcome |
| Bpmn.NameElement | importer.py:339-349 | the element row takes the name of the element with the event's element id when that name is neither missing nor empty; nothing else changes |
| Handlers.CompletedText | importer.py:298-300 | `cond and str(ts) or None` is the timestamp exactly when `cond` holds, since a decimal string is never falsy |
| Handlers.IsRootElement | importer.py:283 | an instance event is about the process itself when its element id is the process id |
| Handlers.WriteProcessRow | importer.py:231-254 | a guarded write of the definition row under `str(key)`, with the process id and an empty name insert-only, and version, resource name, resource and state rewritten |
| Handlers.FlowScopeKey | importer.py:322 | the element's flow scope is the flow-scope key, or the element's own key for the -1 sentinel, as decimal text |
| Handlers.JobForm | importer.py:354-356 | the job's form reference is None exactly when the form-key header is missing, empty or ends in a colon; otherwise it is the header's colon-free last segment |
| Handlers.VariableFlowScope | importer.py:501-504 | a variable's scope is NULL exactly when its scope key is the process instance or the -1 sentinel; otherwise it is the scope key's text |
| Handlers.ApplyDefinition | importer.py:256-278 | from a parsed document: row `pk` takes the last process element's name and no other process row or column changes; the forms before the first one without text are stored, each keeping its first definition and holding the last text for its id; the flag holds exactly when every form has text; only the process and form tables change |
| Handlers.EnrichProcess | importer.py:255-278 | the enrichment faults exactly when the document is unparsable or a form has no text; without a document nothing changes; only process names and forms are written |
| Handlers.HandleProcess | importer.py:229-278 | the definition row is upserted under its key, keeping its process id and `created`; the SET columns change only when the row is not newer; then the enrichment runs and decides the fault; with a parsed definition the form table is exactly the form loop's result from the old table, and the definition row of `pk` stays as the upsert left it except for its name; only the process and form tables change |
| Handlers.WriteInstanceRow | importer.py:283-308 | only an event about the process itself writes the instance row, as a guarded write whose `completed` is the timestamp exactly for ELEMENT_COMPLETED |
| Handlers.WriteElementRow | importer.py:309-337 | every element type except sequence flows and processes gets a guarded element-row write with its flow scope, its state, and `completed` set for ELEMENT_COMPLETED or SEQUENCE_FLOW_TAKEN |
| Handlers.EnrichElement | importer.py:338-349 | the name backfill faults exactly when the definition is unparsable; it changes only the display name of the event's element row: to the document's name for that element id when it is there and non-empty, and otherwise not at all |
| Handlers.HandleProcessInstance | importer.py:281-349 | the instance-level and element-level writes, then the name backfill; it faults only for an unparsable definition; the element's name is the document's non-empty name for its element id, otherwise the stored name, or empty for a new row; only the instance and element tables change |
| Handlers.HandleJob | importer.py:352-396 | a guarded job write whose insert-only part holds the form reference, and whose `completed` is the timestamp for COMPLETED when that timestamp is non-zero; only the job table changes |
| Handlers.HandleDecisionRequirements | importer.py:399-426 | a guarded write that rewrites every column but the key and `created`; only that table changes |
| Handlers.HandleDecision | importer.py:429-454 | a guarded write of the decision with its requirements key as text; only the decision table changes |
| Handlers.HandleDecisionEvaluation | importer.py:457-485 | a guarded write whose `completed` is set for a non-zero EVALUATED timestamp; only the evaluation table changes |
| Handlers.HandleVariableAsWritten | importer.py:488-513 | the variable row as written: a new row stores the value with `created = updated` the event's timestamp; a stored row newer than the event is unchanged; an in-place update stores the variable's name in `value` and takes `state` and `updated` from the event; the process definition and `created` are never rewritten; no other row changes |
| Handlers.HandleVariable | importer.py:488-513 | the variable row as intended: a guarded write of the value and the state under (name, instance, scope) |
| Handlers.HandleIncident | importer.py:516-545 | a guarded incident write with the optional job reference and `completed` set for a non-zero RESOLVED timestamp; only the incident table changes |
| Replay.EnrichProcessIdempotent | importer.py:255-278 | running the definition enrichment again gives the same store and outcome |
| Replay.ProcessRowAbsorbed | importer.py:231-254 | after a process event and its enrichment, the same definition-row upsert changes nothing |
| Replay.ProcessIdempotent | importer.py:229-278 | a redelivered process event gives the same store and outcome as the first delivery |
| Replay.EnrichElementIdempotent | importer.py:338-349 | running the name backfill again gives the same store and outcome |
| Replay.WriteInstanceRowNoop | importer.py:283-308 | the instance upsert changes nothing when the row already absorbs it |
| Replay.WriteElementRowNoop | importer.py:309-337 | the element upsert changes nothing when the row already absorbs it |
| Replay.RowsNoop | importer.py:283-337 | on a store whose instance and element rows already absorb an event, its two upserts change nothing |
| Replay.HandledInstanceRowAbsorbs | importer.py:283-308 | after one handling of a root event, through the element upsert and the name backfill, its instance row absorbs the same write |
| Replay.HandledElementRowAbsorbs | importer.py:309-349 | after one handling of an event with an element row, the name backfill leaves that row absorbing the same write |
| Replay.InstanceRowsAbsorbed | importer.py:283-337 | after one process-instance event, its two upserts applied again change nothing |
| Replay.ProcessInstanceIdempotent | importer.py:281-349 | a redelivered process-instance event gives the same store and outcome as the first delivery |
| Replay.JobIdempotent | importer.py:352-396 | a redelivered job event changes nothing more |
| Replay.DecisionRequirementsIdempotent | importer.py:399-426 | a redelivered decision-requirements event changes nothing more |
| Replay.DecisionIdempotent | importer.py:429-454 | a redelivered decision event changes nothing more |
| Replay.IncidentIdempotent | importer.py:516-545 | a redelivered incident event changes nothing more |
| Replay.DecisionEvaluationIdempotent | importer.py:457-485 | a redelivered decision-evaluation event changes nothing more |
| Replay.VariableIdempotent | importer.py:488-513 | with the corrected conflict clause, a redelivered variable event changes nothing more |
| Replay.VariableAsWrittenReplayStoresName | importer.py:493-509 | as written, redelivering the event of a new variable of a nested scope replaces its stored value with its name |
| Replay.VariableFixChangesOnlyValue | importer.py:509 | the corrected and the as-written handler differ only in the `value` column of the row written |
| Replay.InstanceCompletionCanBeCleared | importer.py:298-306 | a later non-completing event on a completed instance sets `completed` back to NULL |
| Replay.JobLaterWins | importer.py:357-396 | two events on one job with different timestamps leave the same SET columns and `updated` in either order; unless the stored row is newer still, these are the later event's SET columns and timestamp; the stores are identical when the job row existed |
| Replay.JobFormIsLastSegment | importer.py:354-356 | a form-key header `prefix:segment` with a non-empty, colon-free segment refers to that segment |
| Replay.JobFormExample | importer.py:354-356 | the header `camunda-forms:bpmn:myForm:1` refers to form `1` |
| Subscriptions.StreamCategory | importer.py:592-594 | a stream's category is its name lower-cased when it has no colon, otherwise the part after its first colon, lower-cased |
| Subscriptions.ZeebeStreamCategory | importer.py:592-594 | the category of `zeebe:X` is `X` lower-cased |
| Subscriptions.StreamsAreZeebeSuffixes | importer.py:568-577 | every subscribed stream is `zeebe:` followed by its upper-case suffix |
| Subscriptions.LowerSuffixes | importer.py:593 | the lower-cased suffixes are the eight category names |
| Subscriptions.StreamCategoriesAre | importer.py:568-594 | the category each subscribed stream yields |
| Subscriptions.StreamCategoriesDistinct | importer.py:568-577 | no two subscribed streams yield the same category |
| Subscriptions.KnownByCategories | importer.py:548-564 | stream names whose categories are the subscribed streams' categories yield only categories the dispatcher knows |
| Subscriptions.CoverByCategories | importer.py:548-564 | such stream names yield every category the dispatcher knows |
| Subscriptions.StreamsCoverCategories | importer.py:548-594 | the streams and the dispatcher's categories correspond one to one: each stream yields a known category and each category has its stream |
| Router.HandleZeebeEvent | importer.py:548-564 | an unknown category changes nothing and never faults; each known category writes only its handler's tables |
| Router.RouteIdempotent | importer.py:548-564 | in every category but `variable`, a redelivered event gives the same store and outcome as the first delivery |
| Router.RouteVariableReplayStoresName | importer.py:561-562 | the dispatcher does not absorb a redelivered event of a new nested-scope variable: the second delivery changes the store |
| Router.HandleZeebeEventCorrected | importer.py:548-564 | the corrected dispatch equals the source's in every category but `variable`, and in that one too except in the variable table; it faults exactly when the source's does |
| Router.RouteCorrectedIdempotent | importer.py:548-564 | with the corrected variable handler, a redelivered event of every category gives the same store and outcome as the first delivery |
| Consumer.EventsOf | importer.py:597-600 | no more events than records; no events exactly when no record is an event record; every event record's event is among them |
| Consumer.EventsOfAppend | importer.py:597-600 | the events of two runs of records, one after the other, are the first run's events followed by the second's |
| Consumer.EventsOfSingle | importer.py:599-600 | a single record contributes its event exactly when its record type is EVENT |
| Consumer.HandleEvents | importer.py:601-610 | handling no events never faults |
| Consumer.HandleEventsAppend | importer.py:601-610 | handling `a + b` is handling `a` and then, only if that did not fault, handling `b` from the store `a` left |
| Consumer.HandleEventsSingle | importer.py:601-610 | a single event is handled by the handler alone |
| Consumer.HandleEntries | importer.py:597-610 | the loop over an item's records faults only when some record is an event record |
| Consumer.HandleEntriesFilters | importer.py:597-610 | skipping non-event records while handling equals filtering them out first |
| Consumer.UnknownCategoryIgnored | importer.py:548-564 | events of a category the dispatcher does not know leave the store alone |
| Consumer.NonEventsIgnored | importer.py:599-600 | records that are not events never reach a handler |
| Consumer.HandleItems | importer.py:595-616 | after the items of one stream, the stream's cursor is the id of the last item counted as handled, or unchanged when none was; the stream faulted exactly when not all items were counted (which items complete is stated by HandleItemsStopsAtFault) |
| Consumer.HandleItemsAppend | importer.py:595-616 | handling `a + b` is handling `a` and then, only if none of `a` faulted, handling `b` from the state `a` left, with `a`'s items counted |
| Consumer.FaultingItemKeepsCursor | importer.py:601-616 | when the first item's records fault, the stream stops with that item's store, no item counted and the cursors unchanged |
| Consumer.HandleItemsStopsAtFault | importer.py:601-617 | the items counted as handled complete without a fault and give the result; after a fault, the next item's records fault from the state they left, and the result is that store with their cursors, so the cursor never passes a faulting item |
| Consumer.CompletedItemAdvancesCursor | importer.py:595-616 | an item whose records all complete passes on the store they left, and the cursor moves to its id |
| Consumer.SkippedItemAdvancesCursor | importer.py:595-616 | an item with no event records moves the cursor and leaves the store alone |
| Consumer.HandleRead | importer.py:590-617 | one read never drops a cursor and leaves the cursors of streams it returned nothing for |
| Consumer.CompletedReadCursor | importer.py:590-616 | after a read with no fault, each stream's cursor is the id of the last item returned for it |
| Consumer.HandleReadAppend | importer.py:590-617 | reading `a + b` is reading `a` and then, only if that did not fault, reading `b` from the state it left |
| Consumer.HandleReadSingle | importer.py:590-616 | a read of one batch is that stream's items handled from the current state |
| Consumer.FaultedReadCursor | importer.py:590-617 | after a faulted read there is a batch before which the read completed; that batch's stream faulted, and the read ends on its state, with the stream's cursor on its last completed item or where the earlier batches left it |
| Consumer.Run | importer.py:585-625 | over any sequence of polls, with reconnection after a fault, cursors are never dropped, and a stream that returned nothing keeps its cursor |
| Consumer.RunAppend | importer.py:585-625 | polling `a` and then `b` is polling `a + b`: after a fault the next poll starts from the cursors and store the faulted read left |
| Consumer.RunSingle | importer.py:588-625 | one poll is one read, whose state, faulted or not, is where the next poll starts |
| Consumer.RunKeepsSubscriptions | importer.py:568-625 | every subscribed stream keeps a cursor however the polls go |

## Findings

| source | as written | input that shows it | evidently intended | confidence | as-written member | corrected member |
|---|---|---|---|---|---|---|
| importer.py:509 | the `ON CONFLICT DO UPDATE SET value=?` parameter is the variable's `name` | a variable `x = "1"` of a nested scope (scope key neither -1 nor the process instance), delivered twice: the first delivery stores `"1"`, the second overwrites it with `"x"` (`Replay.VariableAsWrittenReplayStoresName`, `Router.RouteVariableReplayStoresName`); any later event on that variable stores the name too | the conflict clause binds the variable's `value`, as the INSERT does at line 498, so a replay changes nothing (`Replay.VariableIdempotent`) | not executed; high, because every other handler repeats its INSERT values in the SET list | Handlers.HandleVariableAsWritten | Handlers.HandleVariable |

`Router.HandleZeebeEvent` and the consumer's `Consumer.Importer` dispatch to
the variable handler as written, as the source does.
`Router.HandleZeebeEventCorrected` dispatches to the corrected handler, and
`Router.RouteCorrectedIdempotent` proves it absorbs redeliveries in every
category. `Replay.VariableFixChangesOnlyValue` shows that the two variable
handlers differ only in that one column.

## Left out

- Redis, the SQLite connection, logging and `time.sleep` are not modelled. The stream reads become the `polls` parameter of `Consumer.Run`. The 30-second block and the 10-second reconnect delay have no counterpart.
- Consumer.Run: the source retries forever. The model folds over a finite sequence of polls, so it says nothing about liveness. A poison record that faults on every attempt stalls the source indefinitely.
- `json.loads` of a stream field is not modelled. Records arrive decoded as `Entry` values, and a record that is not valid JSON is not represented.
- Base64 decoding, XML parsing and XPath are the `parse` parameter of the handlers. `None` stands for a parser that raises. `Doc` holds what the queries return.
- lxml element truthiness is not modelled: `if bpmn` is false for a root element with no children. A parsed document is always treated as present.
- Bpmn.NameElement: several elements with the same id are collapsed into one entry of `elementNames`. An element id containing a double quote would break the XPath query, which is not modelled.
- A user-task form without an `id` attribute (a `KeyError` in the source) is not modelled. Every `FormDef` has an id.
- The definition cache (`lru_cache` inside `get_bpmn`) is not modelled. The cache is created anew on every call, so it cannot change any result.
- Table DDL, indices and foreign keys are not modelled. Identities are the conflict targets the handlers rely on: `key` for most tables and (name, instance, scope) for variables. The model assumes a row's `key` and its secondary unique identity agree: (`bpmnProcessId`, `version`) for process definitions, and the (id, version) pair that the DO UPDATE of `decision` and `decision_requirements` rewrites. So a UNIQUE error on that pair never fires, and is not modelled.
- Handlers.HandleVariable: in SQLite, a NULL in the variable identity's scope never conflicts, so every event of an instance-level variable inserts a new row. The model treats a NULL scope as a value that conflicts, so such a variable is updated in place.
- Handlers.HandleVariableAsWritten: the same NULL-scope simplification applies. In SQLite the name-for-value overwrite therefore happens only for variables of a nested scope, which is the case the counterexample lemmas take.
- Schema.Upsert: timestamps are natural numbers. The store compares them as TEXT. The two orders agree for epoch-millisecond values of equal digit length, which the model assumes.
- Integer columns bound as raw Python integers (decision requirements key, evaluation keys, incident key) are stored under TEXT affinity as their decimal text. The model writes `Str` of them. The job's `created` and `updated` and the `completed` of jobs, evaluations and incidents are bound as integers too. Those columns are TEXT, so the values are stored and compared as text like every other timestamp, under the same equal-digit-length assumption.
- `json.dumps` of headers, variables and decision output is carried as opaque text in the event.
- A payload missing a field its handler reads is the `Incomplete` value, which faults before any write. In the source, a `KeyError` raised after the first statement would leave that statement committed.
- `str.lower` is modelled on ASCII letters only. The stream names are ASCII.

=== FILE: bpmn.dfy ===
/**
 The process-definition document and the enrichment writes made from it.
 Parsing (base64 and XML) is a parameter `parse`: None means the parser raised.
 */
module Bpmn {
  import opened Wrappers
  import opened Schema
  import opened Text

  /** An embedded `zeebe:userTaskForm`; `schema` is its text, None when the element is empty. */
  datatype FormDef = FormDef(id: string, schema: Option<string>)

  /**
   What the handlers ask of a parsed document: the `name` attribute of each
   `bpmn:process` element in document order, the `name` attribute of the
   element carrying each id, and the embedded forms in document order.
   */
  datatype Doc = Doc(
    processNames: seq<Option<string>>,
    elementNames: map<string, Option<string>>,
    forms: seq<FormDef>)

  datatype Resolution = NoDocument | Unparsable | Document(doc: Doc)

  /**
   `get_bpmn`: no document when the process row is missing or its resource is
   empty; otherwise whatever parsing the resource yields.
   */
  function GetBpmn(processes: map<string, Row<ProcessInit, ProcessSet>>, key: string, parse: string -> Option<Doc>)
    : (r: Resolution)
    ensures r.NoDocument? <==> key !in processes || processes[key].rewritten.resource == ""
    ensures r.Unparsable? <==> key in processes && processes[key].rewritten.resource != ""
                               && parse(processes[key].rewritten.resource).None?
    ensures r.Document? ==> key in processes && parse(processes[key].rewritten.resource) == Some(r.doc)
  {
    if key !in processes || processes[key].rewritten.resource == "" then NoDocument
    else match parse(processes[key].rewritten.resource)
      case None => Unparsable
      case Some(d) => Document(d)
  }

  /** The two process tables differ at most in the `bpmnProcessName` column. */
  ghost predicate OnlyNamesDiffer(a: map<string, Row<ProcessInit, ProcessSet>>, b: map<string, Row<ProcessInit, ProcessSet>>) {
    && a.Keys == b.Keys
    && forall j :: j in a ==> b[j] == a[j].(inserted := a[j].inserted.(bpmnProcessName := b[j].inserted.bpmnProcessName))
  }

  /** Name writes leave every resource, hence every resolution, as it was. */
  lemma GetBpmnIgnoresNames(a: map<string, Row<ProcessInit, ProcessSet>>, b: map<string, Row<ProcessInit, ProcessSet>>,
                            key: string, parse: string -> Option<Doc>)
    requires OnlyNamesDiffer(a, b)
    ensures GetBpmn(a, key, parse) == GetBpmn(b, key, parse)
  {
    if key in a {
      assert a[key].rewritten == b[key].rewritten;
    }
  }

  /**
   One `UPDATE process SET bpmnProcessName=? WHERE key=?` per process element:
   the last element's name (possibly None) is what remains.
   */
  function SetProcessName(t: map<string, Row<ProcessInit, ProcessSet>>, key: string, names: seq<Option<string>>)
    : (r: map<string, Row<ProcessInit, ProcessSet>>)
    ensures r.Keys == t.Keys
    ensures OnlyNamesDiffer(t, r)
    ensures forall j :: j in t && j != key ==> r[j] == t[j]
    ensures key in t && |names| == 0 ==> r[key] == t[key]
    ensures key in t && |names| > 0 ==>
              r[key] == t[key].(inserted := t[key].inserted.(bpmnProcessName := names[|names| - 1]))
    decreases |names|
  {
    if |names| == 0 || key !in t then t
    else SetProcessName(t[key := t[key].(inserted := t[key].inserted.(bpmnProcessName := names[0]))], key, names[1..])
  }

  /** The ids of a list of forms. */
  function Ids(defs: seq<FormDef>): set<string>
    decreases |defs|
  {
    if |defs| == 0 then {} else {defs[0].id} + Ids(defs[1..])
  }

  /** Every form carries text, so none of the inserts fails. */
  predicate AllHaveText(defs: seq<FormDef>) {
    forall i :: 0 <= i < |defs| ==> defs[i].schema.Some?
  }

  /** The forms stored before the first one without text, at which the insert fails. */
  function Writable(defs: seq<FormDef>): (p: seq<FormDef>)
    ensures |p| <= |defs| && p == defs[..|p|]
    ensures forall i :: 0 <= i < |p| ==> p[i].schema.Some?
    ensures |p| < |defs| ==> defs[|p|].schema.None?
    decreases |defs|
  {
    if |defs| == 0 || defs[0].schema.None? then [] else [defs[0]] + Writable(defs[1..])
  }

  /** The text of the last form in the list with this id. */
  function LastSchema(defs: seq<FormDef>, id: string): string
    decreases |defs|
  {
    if |defs| == 0 then ""
    else if id in Ids(defs[1..]) then LastSchema(defs[1..], id)
    else if defs[0].id == id then defs[0].schema.GetOr("")
    else ""
  }

  /**
   One `INSERT INTO form ... ON CONFLICT DO UPDATE SET schema=?` per form, in
   order, stopping at the first form without text (NOT NULL fails there).
   A form id already present keeps its process definition and takes the new
   schema; a new id is stored under `definition`. The flag is false when a
   form could not be stored.
   */
  function UpsertForms(t: map<string, FormRow>, definition: string, defs: seq<FormDef>)
    : (r: (map<string, FormRow>, bool))
    ensures r.1 <==> AllHaveText(defs)
    decreases |defs|
  {
    if |defs| == 0 then (t, true)
    else match defs[0].schema
      case None => (t, false)
      case Some(text) =>
        var d := defs[0];
        var t1 := t[d.id := if d.id in t then t[d.id].(schema := text) else FormRow(definition, text)];
        assert AllHaveText(defs) <==> AllHaveText(defs[1..]) by {
          if AllHaveText(defs[1..]) {
            forall i | 0 < i < |defs| ensures defs[i].schema.Some? {
              assert defs[i] == defs[1..][i - 1];
            }
          }
        }
        UpsertForms(t1, definition, defs[1..])
  }

  /** The form rows after the upserts are the previous ones and those of the forms stored before the first failure. */
  lemma {:induction false} UpsertFormsKeys(t: map<string, FormRow>, definition: string, defs: seq<FormDef>)
    ensures UpsertForms(t, definition, defs).0.Keys == t.Keys + Ids(Writable(defs))
    decreases |defs|
  {
    if |defs| > 0 && defs[0].schema.Some? {
      var d := defs[0];
      var text := d.schema.value;
      var t1 := t[d.id := if d.id in t then t[d.id].(schema := text) else FormRow(definition, text)];
      UpsertFormsKeys(t1, definition, defs[1..]);
      assert Writable(defs) == [d] + Writable(defs[1..]);
      assert Writable(defs)[1..] == Writable(defs[1..]);
    }
  }

  /** A form row whose id none of the stored forms carries is left as it was. */
  lemma {:induction false} UpsertFormsKeepsOthers(t: map<string, FormRow>, definition: string, defs: seq<FormDef>)
    ensures var r := UpsertForms(t, definition, defs).0;
            forall id :: id in t && id !in Ids(Writable(defs)) ==> id in r && r[id] == t[id]
    decreases |defs|
  {
    if |defs| > 0 && defs[0].schema.Some? {
      var d := defs[0];
      var text := d.schema.value;
      var t1 := t[d.id := if d.id in t then t[d.id].(schema := text) else FormRow(definition, text)];
      UpsertFormsKeepsOthers(t1, definition, defs[1..]);
      assert Writable(defs) == [d] + Writable(defs[1..]);
      assert Writable(defs)[1..] == Writable(defs[1..]);
    }
  }

  /**
   Each stored form id keeps the definition it was first stored under and
   holds the text of the last stored form with that id.
   */
  lemma {:induction false} UpsertFormsStored(t: map<string, FormRow>, definition: string, defs: seq<FormDef>)
    ensures var r := UpsertForms(t, definition, defs).0;
            var p := Writable(defs);
            forall id :: id in Ids(p) ==>
              id in r && r[id] == FormRow(if id in t then t[id].processDefinition else definition, LastSchema(p, id))
    decreases |defs|
  {
    if |defs| > 0 && defs[0].schema.Some? {
      var d := defs[0];
      var text := d.schema.value;
      var t1 := t[d.id := if d.id in t then t[d.id].(schema := text) else FormRow(definition, text)];
      var p, rest := Writable(defs), Writable(defs[1..]);
      var r := UpsertForms(t, definition, defs).0;
      assert r == UpsertForms(t1, definition, defs[1..]).0;
      UpsertFormsStored(t1, definition, defs[1..]);
      UpsertFormsKeepsOthers(t1, definition, defs[1..]);
      assert p == [d] + rest;
      assert p[1..] == rest;
      forall id | id in Ids(p)
        ensures id in r && r[id] == FormRow(if id in t then t[id].processDefinition else definition, LastSchema(p, id))
      {
        if id !in Ids(rest) {
          assert id == d.id;
          assert r[id] == t1[id];
        }
      }
    }
  }

  /**
   The form table after the upserts: the forms before the first one without
   text are stored; each keeps the definition it was first stored under and
   holds the text of the last form with its id; no other row changes.
   */
  lemma UpsertFormsContents(t: map<string, FormRow>, definition: string, defs: seq<FormDef>)
    ensures var r := UpsertForms(t, definition, defs).0;
            var p := Writable(defs);
            && r.Keys == t.Keys + Ids(p)
            && (forall id :: id in t && id !in Ids(p) ==> r[id] == t[id])
            && (forall id :: id in Ids(p) ==>
                  r[id] == FormRow(if id in t then t[id].processDefinition else definition, LastSchema(p, id)))
  {
    UpsertFormsKeys(t, definition, defs);
    UpsertFormsKeepsOthers(t, definition, defs);
    UpsertFormsStored(t, definition, defs);
  }

  /**
   `UPDATE element_instance SET elementName=? WHERE key=?` for the element with
   the event's element id, when its name is neither missing nor empty.
   */
  function NameElement(t: map<string, Row<ElementInit, ElementSet>>, key: string, doc: Doc, elementId: string)
    : (r: map<string, Row<ElementInit, ElementSet>>)
    ensures r.Keys == t.Keys
    ensures forall j :: j in t && j != key ==> r[j] == t[j]
    ensures key in t ==> r[key].rewritten == t[key].rewritten && r[key].created == t[key].created
                         && r[key].updated == t[key].updated
    ensures key in t ==> r[key].inserted == t[key].inserted.(elementName := r[key].inserted.elementName)
    ensures key in t && elementId in doc.elementNames && Truthy(doc.elementNames[elementId]) ==>
              r[key].inserted.elementName == doc.elementNames[elementId].value
    ensures !(elementId in doc.elementNames && Truthy(doc.elementNames[elementId])) ==> r == t
  {
    if key in t && elementId in doc.elementNames && Truthy(doc.elementNames[elementId]) then
      t[key := t[key].(inserted := t[key].inserted.(elementName := doc.elementNames[elementId].value))]
    else t
  }

  /** Storing the same forms again leaves the form table and the outcome as they were. */
  lemma UpsertFormsIdempotent(t: map<string, FormRow>, definition: string, defs: seq<FormDef>)
    ensures var once := UpsertForms(t, definition, defs);
            UpsertForms(once.0, definition, defs) == once
  {
    var once := UpsertForms(t, definition, defs);
    var twice := UpsertForms(once.0, definition, defs);
    UpsertFormsContents(t, definition, defs);
    UpsertFormsContents(once.0, definition, defs);
    assert twice.0.Keys == once.0.Keys;
    forall id | id in once.0
      ensures twice.0[id] == once.0[id]
    {
    }
    assert twice.0 == once.0;
  }

  /** Writing the same process names again changes nothing. */
  lemma SetProcessNameIdempotent(t: map<string, Row<ProcessInit, ProcessSet>>, key: string, names: seq<Option<string>>)
    ensures var once := SetProcessName(t, key, names);
            SetProcessName(once, key, names) == once
  {
    var once := SetProcessName(t, key, names);
    var twice := SetProcessName(once, key, names);
    assert forall j :: j in once ==> twice[j] == once[j];
  }
}

=== FILE: consumer.dfy ===
/**
 The consumer loop: batches read from the streams are handled item by item,
 records that are not events are skipped, and a stream's cursor moves to an
 item's id once every record of that item has been handled. A fault ends the
 read; the consumer reconnects with the cursors and the store it has.
 */
module Consumer {
  import opened Wrappers
  import opened Schema
  import opened Events
  import opened Bpmn
  import opened Handlers
  import opened Subscriptions
  import opened Router

  const EventRecord := "EVENT"

  /** What the loop does with one event of a category; the importer's is `Importer`. */
  type Handler = (Store, string, Event) -> Outcome

  /** The importer's handler: dispatch by category, with the definition parser fixed. */
  function Importer(parse: string -> Option<Doc>): Handler {
    (s: Store, category: string, e: Event) => HandleZeebeEvent(s, category, e, parse)
  }

  /** One field of a stream item, decoded: its record type and the event it carries. */
  datatype Entry = Entry(recordType: string, event: Event)

  /** A stream item: its id, which becomes the stream's cursor, and its fields in order. */
  datatype Item = Item(id: string, entries: seq<Entry>)

  /** The items one read returned for one stream. */
  datatype Batch = Batch(stream: string, items: seq<Item>)

  /** The projection database and the last id consumed on each stream. */
  datatype State = State(store: Store, cursors: map<string, string>)

  /** How far handling a stream's items got: `handled` items completed, then possibly a fault. */
  datatype Progress = Progress(state: State, handled: nat, faulted: bool)

  /** The events among the entries, in order. */
  function EventsOf(entries: seq<Entry>): (r: seq<Event>)
    ensures |r| <= |entries|
    ensures r == [] <==> forall k :: 0 <= k < |entries| ==> entries[k].recordType != EventRecord
    ensures forall k :: 0 <= k < |entries| && entries[k].recordType == EventRecord ==> entries[k].event in r
    decreases |entries|
  {
    if |entries| == 0 then []
    else if entries[0].recordType == EventRecord then
      var rest := EventsOf(entries[1..]);
      assert forall k :: 1 <= k < |entries| ==> entries[k] == entries[1..][k - 1];
      [entries[0].event] + rest
    else
      var rest := EventsOf(entries[1..]);
      assert forall k :: 1 <= k < |entries| ==> entries[k] == entries[1..][k - 1];
      rest
  }

  /** Events handled in order, stopping at the first fault. */
  function HandleEvents(s: Store, category: string, events: seq<Event>, handle: Handler): (r: Outcome)
    ensures r.Faulted? ==> |events| > 0
    decreases |events|
  {
    if |events| == 0 then Handled(s)
    else match handle(s, category, events[0])
      case Faulted(s1) => Faulted(s1)
      case Handled(s1) => HandleEvents(s1, category, events[1..], handle)
  }

  /** The fields of one item, as the loop visits them: a record that is not an event is skipped. */
  function HandleEntries(s: Store, category: string, entries: seq<Entry>, handle: Handler): (r: Outcome)
    ensures r.Faulted? ==> exists k :: 0 <= k < |entries| && entries[k].recordType == EventRecord
    decreases |entries|
  {
    if |entries| == 0 then Handled(s)
    else if entries[0].recordType != EventRecord then HandleEntries(s, category, entries[1..], handle)
    else match handle(s, category, entries[0].event)
      case Faulted(s1) => Faulted(s1)
      case Handled(s1) => HandleEntries(s1, category, entries[1..], handle)
  }

  /** Filtering distributes over concatenation: the events of two runs of records, one after the other. */
  lemma {:induction false} EventsOfAppend(a: seq<Entry>, b: seq<Entry>)
    ensures EventsOf(a + b) == EventsOf(a) + EventsOf(b)
    decreases |a|
  {
    if |a| == 0 {
      assert a + b == b;
    } else {
      assert (a + b)[0] == a[0];
      assert (a + b)[1..] == a[1..] + b;
      EventsOfAppend(a[1..], b);
    }
  }

  /** A single record contributes its event exactly when it is an event record. */
  lemma EventsOfSingle(x: Entry)
    ensures EventsOf([x]) == if x.recordType == EventRecord then [x.event] else []
  {
  }

  /**
   Handling `a + b` is handling `a`, then, only if that completed, handling
   `b` from the store `a` left: events run in order and stop at the first fault.
   */
  lemma {:induction false} HandleEventsAppend(s: Store, category: string, a: seq<Event>, b: seq<Event>, handle: Handler)
    ensures HandleEvents(s, category, a + b, handle) ==
              match HandleEvents(s, category, a, handle)
              case Faulted(s1) => Faulted(s1)
              case Handled(s1) => HandleEvents(s1, category, b, handle)
    decreases |a|
  {
    if |a| == 0 {
      assert a + b == b;
    } else {
      assert (a + b)[0] == a[0];
      assert (a + b)[1..] == a[1..] + b;
      match handle(s, category, a[0])
      case Faulted(s1) =>
      case Handled(s1) => HandleEventsAppend(s1, category, a[1..], b, handle);
    }
  }

  /** A single event is handled by the handler alone. */
  lemma HandleEventsSingle(s: Store, category: string, e: Event, handle: Handler)
    ensures HandleEvents(s, category, [e], handle) == handle(s, category, e)
  {
  }

  /** Skipping while handling is the same as filtering the events out first and handling the rest. */
  lemma {:induction false} HandleEntriesFilters(s: Store, category: string, entries: seq<Entry>, handle: Handler)
    ensures HandleEntries(s, category, entries, handle) == HandleEvents(s, category, EventsOf(entries), handle)
    decreases |entries|
  {
    if |entries| > 0 {
      if entries[0].recordType != EventRecord {
        HandleEntriesFilters(s, category, entries[1..], handle);
      } else {
        var events := EventsOf(entries);
        assert events[0] == entries[0].event && events[1..] == EventsOf(entries[1..]);
        match handle(s, category, entries[0].event)
        case Faulted(s1) =>
        case Handled(s1) => HandleEntriesFilters(s1, category, entries[1..], handle);
      }
    }
  }

  /** Under the importer's handler, events of a category it does not know leave the store alone. */
  lemma {:induction false} UnknownCategoryIgnored(s: Store, category: string, events: seq<Event>, parse: string -> Option<Doc>)
    requires category !in Categories
    ensures HandleEvents(s, category, events, Importer(parse)) == Handled(s)
    decreases |events|
  {
    if |events| > 0 {
      UnknownCategoryIgnored(s, category, events[1..], parse);
    }
  }

  /** Records that are not events never reach a handler. */
  lemma NonEventsIgnored(s: Store, category: string, entries: seq<Entry>, handle: Handler)
    requires forall k :: 0 <= k < |entries| ==> entries[k].recordType != EventRecord
    ensures HandleEntries(s, category, entries, handle) == Handled(s)
  {
    HandleEntriesFilters(s, category, entries, handle);
  }

  /**
   The items of one stream in order: after each completed item the stream's
   cursor moves to its id; a fault stops the stream with the cursor on the
   last completed item, or where it was when none completed.
   */
  function HandleItems(st: State, stream: string, items: seq<Item>, handle: Handler): (r: Progress)
    ensures r.handled <= |items|
    ensures r.faulted <==> r.handled < |items|
    ensures r.state.cursors == if r.handled == 0 then st.cursors else st.cursors[stream := items[r.handled - 1].id]
    decreases |items|
  {
    if |items| == 0 then Progress(st, 0, false)
    else match HandleEntries(st.store, StreamCategory(stream), items[0].entries, handle)
      case Faulted(s1) => Progress(State(s1, st.cursors), 0, true)
      case Handled(s1) =>
        var rest := HandleItems(State(s1, st.cursors[stream := items[0].id]), stream, items[1..], handle);
        Progress(rest.state, rest.handled + 1, rest.faulted)
  }

  /**
   An item whose records all complete passes the store they left on, and the
   stream's cursor moves to its id.
   */
  lemma CompletedItemAdvancesCursor(st: State, stream: string, item: Item, handle: Handler, s1: Store)
    requires HandleEntries(st.store, StreamCategory(stream), item.entries, handle) == Handled(s1)
    ensures HandleItems(st, stream, [item], handle) == Progress(State(s1, st.cursors[stream := item.id]), 1, false)
  {
    assert [item][1..] == [];
  }

  /** An item without event records is consumed without touching the store: only the cursor moves. */
  lemma SkippedItemAdvancesCursor(st: State, stream: string, item: Item, handle: Handler)
    requires forall k :: 0 <= k < |item.entries| ==> item.entries[k].recordType != EventRecord
    ensures HandleItems(st, stream, [item], handle) == Progress(State(st.store, st.cursors[stream := item.id]), 1, false)
  {
    NonEventsIgnored(st.store, StreamCategory(stream), item.entries, handle);
    assert [item][1..] == [];
  }

  /**
   Handling `a + b` is handling `a`, then, only if none of `a` faulted,
   handling `b` from the state `a` left, counting `a`'s items as handled.
   */
  lemma {:induction false} HandleItemsAppend(st: State, stream: string, a: seq<Item>, b: seq<Item>, handle: Handler)
    ensures HandleItems(st, stream, a + b, handle) ==
              var p := HandleItems(st, stream, a, handle);
              if p.faulted then p
              else
                var q := HandleItems(p.state, stream, b, handle);
                Progress(q.state, p.handled + q.handled, q.faulted)
    decreases |a|
  {
    if |a| == 0 {
      assert a + b == b;
    } else {
      assert (a + b)[0] == a[0];
      assert (a + b)[1..] == a[1..] + b;
      match HandleEntries(st.store, StreamCategory(stream), a[0].entries, handle)
      case Faulted(s1) =>
      case Handled(s1) =>
        HandleItemsAppend(State(s1, st.cursors[stream := a[0].id]), stream, a[1..], b, handle);
    }
  }

  /** An item whose records fault stops the stream at once: its store is kept, no cursor moves. */
  lemma FaultingItemKeepsCursor(st: State, stream: string, items: seq<Item>, handle: Handler)
    requires |items| > 0
    requires HandleEntries(st.store, StreamCategory(stream), items[0].entries, handle).Faulted?
    ensures HandleItems(st, stream, items, handle) ==
              Progress(State(HandleEntries(st.store, StreamCategory(stream), items[0].entries, handle).store, st.cursors), 0, true)
  {
  }

  /**
   Where the stream stopped: the items counted as handled complete without a
   fault, and the result is theirs; when the stream faulted, the next item's
   records fault from the state they left, and the result is that item's
   store with their cursors.
   */
  lemma {:induction false} HandleItemsStopsAtFault(st: State, stream: string, items: seq<Item>, handle: Handler)
    ensures var p := HandleItems(st, stream, items, handle);
            var done := HandleItems(st, stream, items[..p.handled], handle);
            && !done.faulted && done.handled == p.handled
            && (!p.faulted ==> p == done)
            && (p.faulted ==>
                  var o := HandleEntries(done.state.store, StreamCategory(stream), items[p.handled].entries, handle);
                  o.Faulted? && p.state == State(o.store, done.state.cursors))
    decreases |items|
  {
    if |items| > 0 {
      var p := HandleItems(st, stream, items, handle);
      match HandleEntries(st.store, StreamCategory(stream), items[0].entries, handle)
      case Faulted(s1) =>
        assert items[..p.handled] == [];
      case Handled(s1) =>
        var next := State(s1, st.cursors[stream := items[0].id]);
        var rest := HandleItems(next, stream, items[1..], handle);
        HandleItemsStopsAtFault(next, stream, items[1..], handle);
        var prefix := items[..p.handled];
        assert prefix[0] == items[0];
        assert prefix[1..] == items[1..][..rest.handled];
        if p.faulted {
          assert items[p.handled] == items[1..][rest.handled];
        }
    }
  }

  /** None of the batches is for stream `name`. */
  predicate Skips(batches: seq<Batch>, name: string) {
    forall k :: 0 <= k < |batches| ==> batches[k].stream != name
  }

  /** The id of the last item any of the batches returned for stream `name`. */
  function LastItemId(batches: seq<Batch>, name: string): Option<string>
    decreases |batches|
  {
    if |batches| == 0 then None
    else
      var later := LastItemId(batches[1..], name);
      var items := batches[0].items;
      if later.Some? then later
      else if batches[0].stream == name && |items| > 0 then Some(items[|items| - 1].id)
      else None
  }

  /**
   One read: its batches in order, each under the category its stream name
   gives; the first fault abandons the rest of the read. The second component
   tells whether a fault occurred.
   */
  function HandleRead(st: State, batches: seq<Batch>, handle: Handler): (r: (State, bool))
    ensures st.cursors.Keys <= r.0.cursors.Keys
    ensures forall name :: name in r.0.cursors && Skips(batches, name) ==>
              name in st.cursors && r.0.cursors[name] == st.cursors[name]
    ensures r.1 ==> |batches| > 0
    decreases |batches|
  {
    if |batches| == 0 then (st, false)
    else
      var p := HandleItems(st, batches[0].stream, batches[0].items, handle);
      if p.faulted then (p.state, true)
      else
        var rest := HandleRead(p.state, batches[1..], handle);
        assert forall name :: Skips(batches, name) ==> Skips(batches[1..], name);
        rest
  }

  /**
   After a read without a fault, each stream's cursor is the id of the last
   item returned for it; a stream nothing was returned for keeps its cursor,
   or its absence.
   */
  lemma {:induction false} CompletedReadCursor(st: State, batches: seq<Batch>, handle: Handler, name: string)
    ensures var r := HandleRead(st, batches, handle);
            !r.1 ==> match LastItemId(batches, name)
                     case Some(id) => name in r.0.cursors && r.0.cursors[name] == id
                     case None => (name in r.0.cursors <==> name in st.cursors)
                                  && (name in st.cursors ==> r.0.cursors[name] == st.cursors[name])
    decreases |batches|
  {
    if |batches| > 0 {
      var p := HandleItems(st, batches[0].stream, batches[0].items, handle);
      if !p.faulted {
        CompletedReadCursor(p.state, batches[1..], handle, name);
      }
    }
  }

  /**
   Reading `a + b` is reading `a`, then, only if that read did not fault,
   reading `b` from the state it left.
   */
  lemma {:induction false} HandleReadAppend(st: State, a: seq<Batch>, b: seq<Batch>, handle: Handler)
    ensures HandleRead(st, a + b, handle) ==
              var r := HandleRead(st, a, handle);
              if r.1 then r else HandleRead(r.0, b, handle)
    decreases |a|
  {
    if |a| == 0 {
      assert a + b == b;
    } else {
      assert (a + b)[0] == a[0];
      assert (a + b)[1..] == a[1..] + b;
      var p := HandleItems(st, a[0].stream, a[0].items, handle);
      if !p.faulted {
        HandleReadAppend(p.state, a[1..], b, handle);
      }
    }
  }

  /** A read of one batch is that stream's items handled from the current state. */
  lemma HandleReadSingle(st: State, batch: Batch, handle: Handler)
    ensures var p := HandleItems(st, batch.stream, batch.items, handle);
            HandleRead(st, [batch], handle) == (p.state, p.faulted)
  {
  }

  /**
   A faulted read: the batches before batch `j` were read without a fault,
   batch `j`'s stream faulted, and the read ends with that stream's cursor on
   its last completed item, or where the earlier batches left it.
   */
  lemma {:induction false} FaultedReadCursor(st: State, batches: seq<Batch>, handle: Handler) returns (j: nat)
    ensures var r := HandleRead(st, batches, handle);
            r.1 ==>
              && j < |batches|
              && var before := HandleRead(st, batches[..j], handle);
                 var p := HandleItems(before.0, batches[j].stream, batches[j].items, handle);
                 && !before.1 && p.faulted && r.0 == p.state
                 && r.0.cursors == if p.handled == 0 then before.0.cursors
                                   else before.0.cursors[batches[j].stream := batches[j].items[p.handled - 1].id]
    decreases |batches|
  {
    j := 0;
    if |batches| > 0 {
      var p := HandleItems(st, batches[0].stream, batches[0].items, handle);
      if !p.faulted {
        var k := FaultedReadCursor(p.state, batches[1..], handle);
        j := k + 1;
        if HandleRead(st, batches, handle).1 {
          var prefix := batches[..j];
          assert prefix[0] == batches[0];
          assert prefix[1..] == batches[1..][..k];
          assert batches[j] == batches[1..][k];
        }
      }
    }
  }

  /** Where the consumer starts: every subscribed stream read from its beginning. */
  function Initial(store: Store): (r: State)
    ensures r.cursors.Keys == set name | name in Streams
    ensures forall name :: name in r.cursors ==> r.cursors[name] == "0"
  {
    State(store, map name | name in Streams :: "0")
  }

  /**
   The outer loop over polls: a faulted read drops the connection, and the
   next read resumes from the cursors and the store as they were left.
   */
  function Run(st: State, polls: seq<seq<Batch>>, handle: Handler): (r: State)
    ensures st.cursors.Keys <= r.cursors.Keys
    ensures forall name :: name in r.cursors && (forall k :: 0 <= k < |polls| ==> Skips(polls[k], name)) ==>
              name in st.cursors && r.cursors[name] == st.cursors[name]
    decreases |polls|
  {
    if |polls| == 0 then st
    else
      var next := HandleRead(st, polls[0], handle).0;
      var r := Run(next, polls[1..], handle);
      assert forall k :: 1 <= k < |polls| ==> polls[k] == polls[1..][k - 1];
      r
  }

  /**
   Polling `a` and then `b` is polling `a + b`: each poll, faulted or not,
   starts from the cursors and the store the previous one left.
   */
  lemma {:induction false} RunAppend(st: State, a: seq<seq<Batch>>, b: seq<seq<Batch>>, handle: Handler)
    ensures Run(st, a + b, handle) == Run(Run(st, a, handle), b, handle)
    decreases |a|
  {
    if |a| == 0 {
      assert a + b == b;
    } else {
      assert (a + b)[0] == a[0];
      assert (a + b)[1..] == a[1..] + b;
      RunAppend(HandleRead(st, a[0], handle).0, a[1..], b, handle);
    }
  }

  /** One poll is one read; the read's fault flag is dropped and only its state carries on. */
  lemma RunSingle(st: State, poll: seq<Batch>, handle: Handler)
    ensures Run(st, [poll], handle) == HandleRead(st, poll, handle).0
  {
  }

  /** The consumer never loses a subscribed stream's cursor. */
  lemma RunKeepsSubscriptions(store: Store, polls: seq<seq<Batch>>, handle: Handler)
    ensures forall name :: name in Streams ==> name in Run(Initial(store), polls, handle).cursors
  {
  }
}

=== FILE: events.dfy ===
/**
 A decoded workflow-engine record: `key`, `intent`, `timestamp` and the
 category-specific `value`. Serialized JSON parts (job headers and variables,
 decision output) are carried as opaque text.
 */
module Events {

  /**
   The payload fields each handler reads. `Incomplete` stands for any payload
   lacking a field its handler reads, which raises in the source.
   */
  datatype Value =
    | ProcessValue(
        bpmnProcessId: string,
        version: int,
        resourceName: string,
        resource: string,
        processDefinitionKey: int)
    | InstanceValue(
        elementId: string,
        bpmnProcessId: string,
        bpmnElementType: string,
        processDefinitionKey: int,
        processInstanceKey: int,
        parentProcessInstanceKey: int,
        parentElementInstanceKey: int,
        flowScopeKey: int)
    | JobValue(
        jobType: string,
        processInstanceKey: int,
        processDefinitionKey: int,
        elementInstanceKey: int,
        customHeaders: map<string, string>,
        customHeadersJson: string,
        variablesJson: string,
        worker: string,
        errorCode: string,
        errorMessage: string,
        retryBackoff: int,
        recurringTime: int,
        retries: int,
        deadline: int)
    | RequirementsValue(
        decisionRequirementsId: string,
        decisionRequirementsName: string,
        decisionRequirementsVersion: int,
        resource: string,
        resourceName: string)
    | DecisionValue(
        decisionId: string,
        decisionName: string,
        decisionRequirementsKey: int,
        version: int)
    | EvaluationValue(
        processInstanceKey: int,
        processDefinitionKey: int,
        elementInstanceKey: int,
        decisionRequirementsKey: int,
        decisionKey: int,
        decisionOutputJson: string,
        evaluatedDecisionsJson: string)
    | VariableValue(
        name: string,
        value: string,
        processInstanceKey: int,
        processDefinitionKey: int,
        scopeKey: int)
    | IncidentValue(
        jobKey: int,
        processInstanceKey: int,
        processDefinitionKey: int,
        elementInstanceKey: int,
        elementId: string,
        errorMessage: string,
        errorType: string)
    | Incomplete

  datatype Event = Event(key: int, intent: string, timestamp: nat, value: Value)
}

=== FILE: handlers.dfy ===
/**
 The eight projection handlers. Each turns one event into row writes and
 reports whether it ran to the end (`Handled`) or raised part-way (`Faulted`);
 statements before the raise are committed, so a faulted store keeps them.
 */
module Handlers {
  import opened Wrappers
  import opened Text
  import opened Schema
  import opened Events
  import opened Bpmn

  datatype Outcome = Handled(store: Store) | Faulted(store: Store)

  const ElementCompleted := "ELEMENT_COMPLETED"
  const SequenceFlowTaken := "SEQUENCE_FLOW_TAKEN"
  const JobCompleted := "COMPLETED"
  const Evaluated := "EVALUATED"
  const Resolved := "RESOLVED"
  const FormKeyHeader := "io.camunda.zeebe:formKey"

  /** `cond and str(ts) or None`: a decimal string is never falsy, so the timestamp whenever `cond` holds. */
  function CompletedText(cond: bool, ts: nat): (r: Option<nat>)
    ensures r.Some? <==> cond
    ensures r.Some? ==> r.value == ts
  {
    if cond && Str(ts) != "" then Some(ts) else None
  }

  /** `cond and ts or None`: the integer 0 is falsy, so a zero timestamp yields None. */
  function CompletedNumber(cond: bool, ts: nat): (r: Option<nat>)
    ensures r.Some? <==> cond && ts > 0
    ensures r.Some? ==> r.value == ts
  {
    if cond && ts != 0 then Some(ts) else None
  }

  /** `maybe_str(flowScopeKey) or str(key)`: an element without a flow scope is its own scope root. */
  function FlowScopeKey(flowScopeKey: int, key: int): (r: string)
    ensures r == (if flowScopeKey == -1 then Str(key) else Str(flowScopeKey))
    ensures ParseInt(r) == (if flowScopeKey == -1 then key else flowScopeKey)
  {
    StrRoundTrip(key);
    var m := MaybeStr(flowScopeKey);
    if Truthy(m) then m.value else Str(key)
  }

  /**
   The form id a job refers to: the last colon-separated segment of its
   form-key header, None when the header is missing or empty or ends in a colon.
   */
  function JobForm(headers: map<string, string>): (r: Option<string>)
    ensures r.None? <==> FormKeyHeader !in headers || headers[FormKeyHeader] == ""
                         || headers[FormKeyHeader][|headers[FormKeyHeader]| - 1] == ':'
    ensures r.Some? ==> var h := headers[FormKeyHeader];
                        && ':' !in r.value
                        && |r.value| <= |h| && h[|h| - |r.value|..] == r.value
                        && (|r.value| == |h| || h[|h| - |r.value| - 1] == ':')
  {
    var header := if FormKeyHeader in headers && headers[FormKeyHeader] != "" then headers[FormKeyHeader] else "";
    var segment := AfterLastColon(header);
    if segment == "" then None else Some(segment)
  }

  /**
   A variable's flow scope: NULL for a variable of the instance itself or for
   the -1 sentinel, the scope key's decimal string otherwise.
   */
  function VariableFlowScope(scopeKey: int, processInstanceKey: int): (r: Option<string>)
    ensures r.None? <==> scopeKey == processInstanceKey || scopeKey == -1
    ensures r.Some? ==> r.value == Str(scopeKey)
  {
    StrInjective(scopeKey, processInstanceKey);
    if Str(scopeKey) != Str(processInstanceKey) then MaybeStr(scopeKey) else None
  }

  /** A document resolution after which the process handler stops with a fault. */
  predicate ProcessEnrichmentFails(res: Resolution) {
    res.Unparsable? || (res.Document? && !AllHaveText(res.doc.forms))
  }

  /** The definition row's SET columns for a process event. */
  function ProcessColumns(e: Event): ProcessSet
    requires e.value.ProcessValue?
  {
    ProcessSet(e.value.version, e.value.resourceName, e.value.resource, e.intent)
  }

  /**
   The `INSERT INTO process ... ON CONFLICT DO UPDATE` of `handle_process`: a
   guarded write of the definition row, whose name starts empty.
   */
  function WriteProcessRow(s: Store, e: Event): (r: Store)
    requires e.value.ProcessValue?
    ensures r == s.(processes := r.processes)
    ensures GuardedWrite(s.processes, r.processes, Str(e.key), e.timestamp, ProcessInit(e.value.bpmnProcessId, Some("")),
                         ProcessSet(e.value.version, e.value.resourceName, e.value.resource, e.intent))
  {
    s.(processes := Upsert(s.processes, Str(e.key), ProcessInit(e.value.bpmnProcessId, Some("")),
                           ProcessColumns(e), ProcessColumns(e), e.timestamp))
  }

  /**
   What the enrichment of definition `pk` did, given its document resolution:
   nothing without a document; a fault for an unparsable one; otherwise the
   last process name is stored and the forms are upserted in order.
   */
  ghost predicate DefinitionApplied(s: Store, r: Outcome, res: Resolution, pk: string) {
    && (r.Faulted? <==> ProcessEnrichmentFails(res))
    && (!res.Document? ==> r.store == s)
    && (res.Document? && |res.doc.processNames| > 0 && pk in r.store.processes ==>
          r.store.processes[pk].inserted.bpmnProcessName == res.doc.processNames[|res.doc.processNames| - 1])
    && (res.Document? ==> (r.store.forms, r.Handled?) == UpsertForms(s.forms, pk, res.doc.forms))
  }

  /**
   The process name and form writes made from a parsed definition document:
   row `pk` takes the last process element's name, the forms before the first
   one without text are stored, and the flag tells whether every form was.
   */
  function ApplyDefinition(s: Store, pk: string, doc: Doc): (r: (Store, bool))
    ensures r.0 == s.(processes := r.0.processes, forms := r.0.forms)
    ensures OnlyNamesDiffer(s.processes, r.0.processes)
    ensures forall j :: j in s.processes && j != pk ==> r.0.processes[j] == s.processes[j]
    ensures pk in s.processes && |doc.processNames| == 0 ==> r.0.processes[pk] == s.processes[pk]
    ensures pk in s.processes && |doc.processNames| > 0 ==>
              r.0.processes[pk].inserted.bpmnProcessName == doc.processNames[|doc.processNames| - 1]
    ensures r.1 <==> AllHaveText(doc.forms)
    ensures var p := Writable(doc.forms);
            && r.0.forms.Keys == s.forms.Keys + Ids(p)
            && (forall id :: id in s.forms && id !in Ids(p) ==> r.0.forms[id] == s.forms[id])
            && (forall id :: id in Ids(p) ==>
                  r.0.forms[id] == FormRow(if id in s.forms then s.forms[id].processDefinition else pk, LastSchema(p, id)))
  {
    UpsertFormsContents(s.forms, pk, doc.forms);
    var (forms, complete) := UpsertForms(s.forms, pk, doc.forms);
    (s.(processes := SetProcessName(s.processes, pk, doc.processNames), forms := forms), complete)
  }

  /**
   The enrichment writes of `handle_process` from the document of definition
   `pk`: its process name, then its forms. They carry no timestamp check.
   */
  function EnrichProcess(s: Store, pk: string, parse: string -> Option<Doc>): (r: Outcome)
    ensures r.store == s.(processes := r.store.processes, forms := r.store.forms)
    ensures OnlyNamesDiffer(s.processes, r.store.processes)
    ensures forall j :: j in s.processes && j != pk ==> r.store.processes[j] == s.processes[j]
    ensures DefinitionApplied(s, r, GetBpmn(s.processes, pk, parse), pk)
  {
    match GetBpmn(s.processes, pk, parse)
    case NoDocument => Handled(s)
    case Unparsable => Faulted(s)
    case Document(doc) =>
      var (s2, complete) := ApplyDefinition(s, pk, doc);
      if complete then Handled(s2) else Faulted(s2)
  }

  /**
   `handle_process`: upsert the definition row, then, from the definition's
   document, write its process name and one form row per embedded form.
   */
  function HandleProcess(s: Store, e: Event, parse: string -> Option<Doc>): (r: Outcome)
    ensures !e.value.ProcessValue? ==> r == Faulted(s)
    ensures e.value.ProcessValue? ==> r.store == s.(processes := r.store.processes, forms := r.store.forms)
    ensures e.value.ProcessValue? ==>
              var k := Str(e.key);
              var pk := Str(e.value.processDefinitionKey);
              var res := GetBpmn(r.store.processes, pk, parse);
              && r.store.processes.Keys == s.processes.Keys + {k}
              && (forall j :: j in s.processes && j != k && j != pk ==> r.store.processes[j] == s.processes[j])
              && (k in s.processes ==> r.store.processes[k].inserted.bpmnProcessId == s.processes[k].inserted.bpmnProcessId
                                       && r.store.processes[k].created == s.processes[k].created)
              && (k !in s.processes ==> r.store.processes[k].inserted.bpmnProcessId == e.value.bpmnProcessId
                                        && r.store.processes[k].created == e.timestamp)
              && (NotOlder(s.processes, k, e.timestamp) ==>
                    && r.store.processes[k].rewritten == ProcessSet(e.value.version, e.value.resourceName, e.value.resource, e.intent)
                    && r.store.processes[k].updated == e.timestamp)
              && (!NotOlder(s.processes, k, e.timestamp) ==>
                    r.store.processes[k].rewritten == s.processes[k].rewritten && r.store.processes[k].updated == s.processes[k].updated)
              && (r.Faulted? <==> ProcessEnrichmentFails(res))
              && (!res.Document? ==> r.store.forms == s.forms)
              && (res.Document? && |res.doc.processNames| > 0 ==>
                    r.store.processes[pk].inserted.bpmnProcessName == res.doc.processNames[|res.doc.processNames| - 1])
              && (res.Document? ==> (r.store.forms, r.Handled?) == UpsertForms(s.forms, pk, res.doc.forms))
              && OnlyNamesDiffer(WriteProcessRow(s, e).processes, r.store.processes)
              && DefinitionApplied(WriteProcessRow(s, e), r, res, pk)
  {
    if !e.value.ProcessValue? then Faulted(s)
    else EnrichProcess(WriteProcessRow(s, e), Str(e.value.processDefinitionKey), parse)
  }

  /** The event describes the process itself: its element id is the process id. */
  predicate IsRootElement(v: Value)
    requires v.InstanceValue?
  {
    v.elementId == v.bpmnProcessId
  }

  /** Sequence flows and the process element get no element-instance row. */
  predicate HasElementRow(v: Value)
    requires v.InstanceValue?
    ensures HasElementRow(v) <==> v.bpmnElementType != "SEQUENCE_FLOW" && v.bpmnElementType != "PROCESS"
  {
    v.bpmnElementType !in ["SEQUENCE_FLOW", "PROCESS"]
  }

  /** The insert-only columns of an instance row. */
  function InstanceInitOf(v: Value): InstanceInit
    requires v.InstanceValue?
  {
    InstanceInit(Str(v.processDefinitionKey), MaybeStr(v.parentProcessInstanceKey), MaybeStr(v.parentElementInstanceKey))
  }

  /** The instance-level upsert, made only for an event about the process itself. */
  function WriteInstanceRow(s: Store, e: Event): (r: Store)
    requires e.value.InstanceValue?
    ensures r == s.(instances := r.instances)
    ensures !IsRootElement(e.value) ==> r == s
    ensures IsRootElement(e.value) ==>
              GuardedWrite(s.instances, r.instances, Str(e.key), e.timestamp, InstanceInitOf(e.value),
                           InstanceSet(e.intent, if e.intent == ElementCompleted then Some(e.timestamp) else None))
  {
    if IsRootElement(e.value) then
      var cols := InstanceSet(e.intent, CompletedText(e.intent == ElementCompleted, e.timestamp));
      s.(instances := Upsert(s.instances, Str(e.key), InstanceInitOf(e.value), cols, cols, e.timestamp))
    else s
  }

  /** The insert-only columns of an element row; the display name starts empty. */
  function ElementInitOf(v: Value): ElementInit
    requires v.InstanceValue?
  {
    ElementInit(Str(v.processInstanceKey), v.elementId, "", v.bpmnElementType)
  }

  /** The element-level upsert, made for every element type but sequence flows and processes. */
  function WriteElementRow(s: Store, e: Event): (r: Store)
    requires e.value.InstanceValue?
    ensures r == s.(elements := r.elements)
    ensures !HasElementRow(e.value) ==> r == s
    ensures HasElementRow(e.value) ==>
              GuardedWrite(s.elements, r.elements, Str(e.key), e.timestamp, ElementInitOf(e.value),
                           ElementSet(if e.value.flowScopeKey == -1 then Str(e.key) else Str(e.value.flowScopeKey), e.intent,
                                      if e.intent in [ElementCompleted, SequenceFlowTaken] then Some(e.timestamp) else None))
  {
    if HasElementRow(e.value) then
      var cols := ElementSet(FlowScopeKey(e.value.flowScopeKey, e.key), e.intent,
                             CompletedText(e.intent in [ElementCompleted, SequenceFlowTaken], e.timestamp));
      s.(elements := Upsert(s.elements, Str(e.key), ElementInitOf(e.value), cols, cols, e.timestamp))
    else s
  }

  /**
   The display-name backfill of element row `k` from the document of
   definition `pk`; an unparsable document raises before it.
   */
  function EnrichElement(s: Store, k: string, pk: string, elementId: string, parse: string -> Option<Doc>): (r: Outcome)
    ensures r.store == s.(elements := r.store.elements)
    ensures r.Faulted? <==> GetBpmn(s.processes, pk, parse).Unparsable?
    ensures r.store.elements.Keys == s.elements.Keys
    ensures forall j :: j in s.elements && j != k ==> r.store.elements[j] == s.elements[j]
    ensures k in s.elements ==> var row := r.store.elements[k];
                                && row.rewritten == s.elements[k].rewritten && row.created == s.elements[k].created
                                && row.updated == s.elements[k].updated
                                && row.inserted == s.elements[k].inserted.(elementName := row.inserted.elementName)
    ensures k in s.elements ==>
              match GetBpmn(s.processes, pk, parse)
              case Document(doc) =>
                if elementId in doc.elementNames && Truthy(doc.elementNames[elementId])
                then r.store.elements[k].inserted.elementName == doc.elementNames[elementId].value
                else r.store.elements[k] == s.elements[k]
              case _ => r.store.elements[k] == s.elements[k]
  {
    match GetBpmn(s.processes, pk, parse)
    case NoDocument => Handled(s)
    case Unparsable => Faulted(s)
    case Document(doc) => Handled(s.(elements := NameElement(s.elements, k, doc, elementId)))
  }

  /**
   `handle_process_instance`: one envelope carries instance-level and
   element-level information; afterwards the element's display name is
   backfilled from the definition's document, without a timestamp check.
   */
  function HandleProcessInstance(s: Store, e: Event, parse: string -> Option<Doc>): (r: Outcome)
    ensures !e.value.InstanceValue? ==> r == Faulted(s)
    ensures e.value.InstanceValue? ==> r.store == s.(instances := r.store.instances, elements := r.store.elements)
    ensures e.value.InstanceValue? ==>
              (r.Faulted? <==> GetBpmn(s.processes, Str(e.value.processDefinitionKey), parse).Unparsable?)
    ensures e.value.InstanceValue? && !IsRootElement(e.value) ==> r.store.instances == s.instances
    ensures e.value.InstanceValue? && IsRootElement(e.value) ==>
              GuardedWrite(s.instances, r.store.instances, Str(e.key), e.timestamp, InstanceInitOf(e.value),
                           InstanceSet(e.intent, if e.intent == ElementCompleted then Some(e.timestamp) else None))
    ensures e.value.InstanceValue? ==>
              var k := Str(e.key);
              && r.store.elements.Keys == s.elements.Keys + (if HasElementRow(e.value) then {k} else {})
              && (forall j :: j in s.elements && j != k ==> r.store.elements[j] == s.elements[j])
    ensures e.value.InstanceValue? && !HasElementRow(e.value) && Str(e.key) in s.elements ==>
              var k := Str(e.key);
              && r.store.elements[k].rewritten == s.elements[k].rewritten
              && r.store.elements[k].updated == s.elements[k].updated
    ensures e.value.InstanceValue? && HasElementRow(e.value) ==>
              var k := Str(e.key);
              var row := r.store.elements[k];
              && (k in s.elements ==> row.created == s.elements[k].created
                                      && row.inserted == s.elements[k].inserted.(elementName := row.inserted.elementName))
              && (k !in s.elements ==> row.created == e.timestamp
                                       && row.inserted == ElementInitOf(e.value).(elementName := row.inserted.elementName))
              && (!NotOlder(s.elements, k, e.timestamp) ==> row.rewritten == s.elements[k].rewritten && row.updated == s.elements[k].updated)
              && (NotOlder(s.elements, k, e.timestamp) ==>
                    && row.updated == e.timestamp
                    && row.rewritten.state == e.intent
                    && row.rewritten.flowScopeKey == (if e.value.flowScopeKey == -1 then Str(e.key) else Str(e.value.flowScopeKey))
                    && row.rewritten.completed == (if e.intent in [ElementCompleted, SequenceFlowTaken] then Some(e.timestamp) else None))
    ensures e.value.InstanceValue? && Str(e.key) in r.store.elements ==>
              var k := Str(e.key);
              var name := r.store.elements[k].inserted.elementName;
              var res := GetBpmn(s.processes, Str(e.value.processDefinitionKey), parse);
              if res.Document? && e.value.elementId in res.doc.elementNames && Truthy(res.doc.elementNames[e.value.elementId])
              then name == res.doc.elementNames[e.value.elementId].value
              else name == (if k in s.elements then s.elements[k].inserted.elementName else "")
  {
    if !e.value.InstanceValue? then Faulted(s)
    else
      var s2 := WriteElementRow(WriteInstanceRow(s, e), e);
      EnrichElement(s2, Str(e.key), Str(e.value.processDefinitionKey), e.value.elementId, parse)
  }

  /** The insert-only job columns; the form reference comes from the form-key header. */
  function JobInitOf(v: Value): JobInit
    requires v.JobValue?
  {
    JobInit(v.jobType, Str(v.processInstanceKey), Str(v.processDefinitionKey), Str(v.elementInstanceKey),
            v.customHeadersJson, JobForm(v.customHeaders))
  }

  /** The SET columns of a job event's row. */
  function JobSetOf(e: Event): JobSet
    requires e.value.JobValue?
  {
    var v := e.value;
    JobSet(v.variablesJson, v.worker, v.errorCode, v.errorMessage, e.intent, v.retryBackoff,
           v.recurringTime, v.retries, v.deadline, CompletedNumber(e.intent == JobCompleted, e.timestamp))
  }

  /** `handle_job`: the form reference is fixed when the job row is first inserted. */
  function HandleJob(s: Store, e: Event): (r: Outcome)
    ensures !e.value.JobValue? ==> r == Faulted(s)
    ensures e.value.JobValue? ==> r.Handled? && r.store == s.(jobs := r.store.jobs)
    ensures e.value.JobValue? ==>
              var k := Str(e.key);
              var v := e.value;
              GuardedWrite(s.jobs, r.store.jobs, k, e.timestamp, JobInitOf(v),
                              JobSet(v.variablesJson, v.worker, v.errorCode, v.errorMessage, e.intent,
                                     v.retryBackoff, v.recurringTime, v.retries, v.deadline,
                                     if e.intent == JobCompleted && e.timestamp > 0 then Some(e.timestamp) else None))
  {
    if !e.value.JobValue? then Faulted(s)
    else
      var cols := JobSetOf(e);
      Handled(s.(jobs := Upsert(s.jobs, Str(e.key), JobInitOf(e.value), cols, cols, e.timestamp)))
  }

  /** `handle_decision_requirements`: every column but the key and `created` is rewritten. */
  function HandleDecisionRequirements(s: Store, e: Event): (r: Outcome)
    ensures !e.value.RequirementsValue? ==> r == Faulted(s)
    ensures e.value.RequirementsValue? ==> r.Handled? && r.store == s.(requirements := r.store.requirements)
    ensures e.value.RequirementsValue? ==>
              var v := e.value;
              GuardedWrite(s.requirements, r.store.requirements, Str(e.key), e.timestamp, NoColumns,
                           RequirementsSet(v.decisionRequirementsId, v.decisionRequirementsName, v.decisionRequirementsVersion,
                                           v.resource, v.resourceName, e.intent))
  {
    match e.value
    case RequirementsValue(decisionRequirementsId, decisionRequirementsName, decisionRequirementsVersion, resource, resourceName) =>
      var cols := RequirementsSet(decisionRequirementsId, decisionRequirementsName, decisionRequirementsVersion,
                                  resource, resourceName, e.intent);
      Handled(s.(requirements := Upsert(s.requirements, Str(e.key), NoColumns, cols, cols, e.timestamp)))
    case _ => Faulted(s)
  }

  /** `handle_decision`: every column but the key and `created` is rewritten. */
  function HandleDecision(s: Store, e: Event): (r: Outcome)
    ensures !e.value.DecisionValue? ==> r == Faulted(s)
    ensures e.value.DecisionValue? ==> r.Handled? && r.store == s.(decisions := r.store.decisions)
    ensures e.value.DecisionValue? ==>
              var v := e.value;
              GuardedWrite(s.decisions, r.store.decisions, Str(e.key), e.timestamp, NoColumns,
                           DecisionSet(v.decisionId, v.decisionName, Str(v.decisionRequirementsKey), v.version, e.intent))
  {
    match e.value
    case DecisionValue(decisionId, decisionName, decisionRequirementsKey, version) =>
      var cols := DecisionSet(decisionId, decisionName, Str(decisionRequirementsKey), version, e.intent);
      Handled(s.(decisions := Upsert(s.decisions, Str(e.key), NoColumns, cols, cols, e.timestamp)))
    case _ => Faulted(s)
  }

  /** `handle_decision_evaluation`: completed only on the EVALUATED intent. */
  function HandleDecisionEvaluation(s: Store, e: Event): (r: Outcome)
    ensures !e.value.EvaluationValue? ==> r == Faulted(s)
    ensures e.value.EvaluationValue? ==> r.Handled? && r.store == s.(evaluations := r.store.evaluations)
    ensures e.value.EvaluationValue? ==>
              var k := Str(e.key);
              var v := e.value;
              GuardedWrite(s.evaluations, r.store.evaluations, k, e.timestamp,
                              EvaluationInit(Str(v.processInstanceKey), Str(v.processDefinitionKey), Str(v.elementInstanceKey),
                                             Str(v.decisionRequirementsKey), Str(v.decisionKey)),
                              EvaluationSet(v.decisionOutputJson, v.evaluatedDecisionsJson, e.intent,
                                            if e.intent == Evaluated && e.timestamp > 0 then Some(e.timestamp) else None))
  {
    match e.value
    case EvaluationValue(processInstanceKey, processDefinitionKey, elementInstanceKey, decisionRequirementsKey,
                         decisionKey, decisionOutputJson, evaluatedDecisionsJson) =>
      var init := EvaluationInit(Str(processInstanceKey), Str(processDefinitionKey), Str(elementInstanceKey),
                                 Str(decisionRequirementsKey), Str(decisionKey));
      var cols := EvaluationSet(decisionOutputJson, evaluatedDecisionsJson, e.intent,
                                CompletedNumber(e.intent == Evaluated, e.timestamp));
      Handled(s.(evaluations := Upsert(s.evaluations, Str(e.key), init, cols, cols, e.timestamp)))
    case _ => Faulted(s)
  }

  /** The identity of the row a variable event writes. */
  function VariableIdOf(v: Value): VariableId
    requires v.VariableValue?
  {
    VariableId(v.name, Str(v.processInstanceKey), VariableFlowScope(v.scopeKey, v.processInstanceKey))
  }

  /**
   `handle_variable` as written: the conflict clause stores the variable's
   name, not its value, in the `value` column.
   */
  function HandleVariableAsWritten(s: Store, e: Event): (r: Outcome)
    ensures !e.value.VariableValue? ==> r == Faulted(s)
    ensures e.value.VariableValue? ==> r.Handled? && r.store == s.(variables := r.store.variables)
    ensures e.value.VariableValue? ==>
              var v := e.value;
              var id := VariableIdOf(v);
              && OnlyKeyChanged(s.variables, r.store.variables, id)
              && (id !in s.variables ==>
                    r.store.variables[id] == Row(VariableInit(Str(v.processDefinitionKey)), VariableSet(v.value, e.intent),
                                                 e.timestamp, e.timestamp))
              && (id in s.variables && e.timestamp < s.variables[id].updated ==> r.store.variables[id] == s.variables[id])
              && (id in s.variables && s.variables[id].updated <= e.timestamp ==>
                    r.store.variables[id] == s.variables[id].(rewritten := VariableSet(v.name, e.intent), updated := e.timestamp))
  {
    match e.value
    case VariableValue(name, value, processInstanceKey, processDefinitionKey, scopeKey) =>
      var id := VariableIdOf(e.value);
      Handled(s.(variables := Upsert(s.variables, id, VariableInit(Str(processDefinitionKey)),
                                     VariableSet(value, e.intent), VariableSet(name, e.intent), e.timestamp)))
    case _ => Faulted(s)
  }

  /** `handle_variable` with the conflict clause storing the value, as the INSERT does. */
  function HandleVariable(s: Store, e: Event): (r: Outcome)
    ensures !e.value.VariableValue? ==> r == Faulted(s)
    ensures e.value.VariableValue? ==> r.Handled? && r.store == s.(variables := r.store.variables)
    ensures e.value.VariableValue? ==>
              var v := e.value;
              GuardedWrite(s.variables, r.store.variables, VariableIdOf(v), e.timestamp,
                           VariableInit(Str(v.processDefinitionKey)), VariableSet(v.value, e.intent))
  {
    match e.value
    case VariableValue(name, value, processInstanceKey, processDefinitionKey, scopeKey) =>
      var cols := VariableSet(value, e.intent);
      Handled(s.(variables := Upsert(s.variables, VariableIdOf(e.value), VariableInit(Str(processDefinitionKey)),
                                     cols, cols, e.timestamp)))
    case _ => Faulted(s)
  }

  /** `handle_incident`: completed only on the RESOLVED intent; the job reference is optional. */
  function HandleIncident(s: Store, e: Event): (r: Outcome)
    ensures !e.value.IncidentValue? ==> r == Faulted(s)
    ensures e.value.IncidentValue? ==> r.Handled? && r.store == s.(incidents := r.store.incidents)
    ensures e.value.IncidentValue? ==>
              var k := Str(e.key);
              var v := e.value;
              GuardedWrite(s.incidents, r.store.incidents, k, e.timestamp,
                              IncidentInit(MaybeStr(v.jobKey), Str(v.processInstanceKey), Str(v.processDefinitionKey),
                                           Str(v.elementInstanceKey), v.elementId),
                              IncidentSet(v.errorMessage, v.errorType, e.intent,
                                          if e.intent == Resolved && e.timestamp > 0 then Some(e.timestamp) else None))
  {
    match e.value
    case IncidentValue(jobKey, processInstanceKey, processDefinitionKey, elementInstanceKey, elementId, errorMessage, errorType) =>
      var init := IncidentInit(MaybeStr(jobKey), Str(processInstanceKey), Str(processDefinitionKey),
                               Str(elementInstanceKey), elementId);
      var cols := IncidentSet(errorMessage, errorType, e.intent, CompletedNumber(e.intent == Resolved, e.timestamp));
      Handled(s.(incidents := Upsert(s.incidents, Str(e.key), init, cols, cols, e.timestamp)))
    case _ => Faulted(s)
  }
}

=== FILE: replay.dfy ===
/**
 What happens when events are applied again or out of order: every handler
 but the as-written variable handler absorbs a replay of the same event, and
 of two events on one identity the later-stamped one's columns win.
 */
module Replay {
  import opened Wrappers
  import opened Text
  import opened Schema
  import opened Events
  import opened Bpmn
  import opened Handlers

  /** Enriching from the same document twice writes nothing new: names and forms are already in place. */
  lemma EnrichProcessIdempotent(s: Store, pk: string, parse: string -> Option<Doc>)
    ensures var once := EnrichProcess(s, pk, parse);
            EnrichProcess(once.store, pk, parse) == once
  {
    var once := EnrichProcess(s, pk, parse);
    GetBpmnIgnoresNames(s.processes, once.store.processes, pk, parse);
    match GetBpmn(s.processes, pk, parse)
    case NoDocument =>
    case Unparsable =>
    case Document(doc) =>
      SetProcessNameIdempotent(s.processes, pk, doc.processNames);
      UpsertFormsIdempotent(s.forms, pk, doc.forms);
  }

  /** The definition-row upsert of a redelivered process event finds its own row and changes nothing. */
  lemma ProcessRowAbsorbed(s: Store, e: Event, parse: string -> Option<Doc>)
    requires e.value.ProcessValue?
    ensures var once := EnrichProcess(WriteProcessRow(s, e), Str(e.value.processDefinitionKey), parse);
            WriteProcessRow(once.store, e) == once.store
  {
    var s1 := WriteProcessRow(s, e);
    var once := EnrichProcess(s1, Str(e.value.processDefinitionKey), parse);
    var k := Str(e.key);
    assert once.store.processes[k].rewritten == s1.processes[k].rewritten;
    assert once.store.processes[k].updated == s1.processes[k].updated;
    UpsertStable(once.store.processes, k, ProcessInit(e.value.bpmnProcessId, Some("")),
                 ProcessColumns(e), ProcessColumns(e), e.timestamp);
  }

  lemma {:induction false} ProcessIdempotent(s: Store, e: Event, parse: string -> Option<Doc>)
    ensures HandleProcess(HandleProcess(s, e, parse).store, e, parse) == HandleProcess(s, e, parse)
  {
    if e.value.ProcessValue? {
      ProcessRowAbsorbed(s, e, parse);
      EnrichProcessIdempotent(WriteProcessRow(s, e), Str(e.value.processDefinitionKey), parse);
    }
  }

  /** Backfilling the same display name twice is the same as once. */
  lemma EnrichElementIdempotent(s: Store, k: string, pk: string, elementId: string, parse: string -> Option<Doc>)
    ensures var once := EnrichElement(s, k, pk, elementId, parse);
            EnrichElement(once.store, k, pk, elementId, parse) == once
  {
  }

  /** The SET columns of the instance row a process-instance event writes. */
  function InstanceColumns(e: Event): InstanceSet {
    InstanceSet(e.intent, if e.intent == ElementCompleted then Some(e.timestamp) else None)
  }

  /** The SET columns of the element row a process-instance event writes. */
  function ElementColumns(e: Event): ElementSet
    requires e.value.InstanceValue?
  {
    ElementSet(if e.value.flowScopeKey == -1 then Str(e.key) else Str(e.value.flowScopeKey), e.intent,
               if e.intent in [ElementCompleted, SequenceFlowTaken] then Some(e.timestamp) else None)
  }

  /** The instance-row upsert is a no-op on a store whose instance row already absorbs it. */
  lemma WriteInstanceRowNoop(t: Store, e: Event)
    requires e.value.InstanceValue?
    requires IsRootElement(e.value) ==> Absorbs(t.instances, Str(e.key), e.timestamp, InstanceColumns(e))
    ensures WriteInstanceRow(t, e) == t
  {
    if IsRootElement(e.value) {
      var cols := InstanceSet(e.intent, CompletedText(e.intent == ElementCompleted, e.timestamp));
      UpsertStable(t.instances, Str(e.key), InstanceInitOf(e.value), cols, cols, e.timestamp);
    }
  }

  /** The element-row upsert is a no-op on a store whose element row already absorbs it. */
  lemma WriteElementRowNoop(t: Store, e: Event)
    requires e.value.InstanceValue?
    requires HasElementRow(e.value) ==> Absorbs(t.elements, Str(e.key), e.timestamp, ElementColumns(e))
    ensures WriteElementRow(t, e) == t
  {
    if HasElementRow(e.value) {
      var cols := ElementSet(FlowScopeKey(e.value.flowScopeKey, e.key), e.intent,
                             CompletedText(e.intent in [ElementCompleted, SequenceFlowTaken], e.timestamp));
      UpsertStable(t.elements, Str(e.key), ElementInitOf(e.value), cols, cols, e.timestamp);
    }
  }

  /** Both rows a process-instance event writes already absorb its writes. */
  ghost predicate RowsAbsorb(t: Store, e: Event)
    requires e.value.InstanceValue?
  {
    && (IsRootElement(e.value) ==> Absorbs(t.instances, Str(e.key), e.timestamp, InstanceColumns(e)))
    && (HasElementRow(e.value) ==> Absorbs(t.elements, Str(e.key), e.timestamp, ElementColumns(e)))
  }

  /** On a store whose rows absorb an event, the event's two upserts change nothing. */
  lemma RowsNoop(t: Store, e: Event)
    requires e.value.InstanceValue? && RowsAbsorb(t, e)
    ensures WriteElementRow(WriteInstanceRow(t, e), e) == t
  {
    WriteInstanceRowNoop(t, e);
    WriteElementRowNoop(t, e);
  }

  /** After the two upserts and the name backfill, the instance row absorbs the event. */
  lemma HandledInstanceRowAbsorbs(s: Store, e: Event, parse: string -> Option<Doc>)
    requires e.value.InstanceValue? && IsRootElement(e.value)
    ensures var t := EnrichElement(WriteElementRow(WriteInstanceRow(s, e), e), Str(e.key),
                                   Str(e.value.processDefinitionKey), e.value.elementId, parse).store;
            Absorbs(t.instances, Str(e.key), e.timestamp, InstanceColumns(e))
  {
    var s1 := WriteInstanceRow(s, e);
    var s2 := WriteElementRow(s1, e);
    var t := EnrichElement(s2, Str(e.key), Str(e.value.processDefinitionKey), e.value.elementId, parse).store;
    GuardedWriteAbsorbs(s.instances, s1.instances, Str(e.key), e.timestamp, InstanceInitOf(e.value), InstanceColumns(e));
    assert t.instances == s2.instances == s1.instances;
  }

  /** After the two upserts and the name backfill, the element row absorbs the event. */
  lemma HandledElementRowAbsorbs(s: Store, e: Event, parse: string -> Option<Doc>)
    requires e.value.InstanceValue? && HasElementRow(e.value)
    ensures var t := EnrichElement(WriteElementRow(WriteInstanceRow(s, e), e), Str(e.key),
                                   Str(e.value.processDefinitionKey), e.value.elementId, parse).store;
            Absorbs(t.elements, Str(e.key), e.timestamp, ElementColumns(e))
  {
    var k := Str(e.key);
    var s1 := WriteInstanceRow(s, e);
    var s2 := WriteElementRow(s1, e);
    var t := EnrichElement(s2, k, Str(e.value.processDefinitionKey), e.value.elementId, parse).store;
    GuardedWriteAbsorbs(s1.elements, s2.elements, k, e.timestamp, ElementInitOf(e.value), ElementColumns(e));
    assert t.elements[k].rewritten == s2.elements[k].rewritten && t.elements[k].updated == s2.elements[k].updated;
  }

  /** The instance and element upserts of a redelivered event find their own rows and change nothing. */
  lemma InstanceRowsAbsorbed(s: Store, e: Event, parse: string -> Option<Doc>)
    requires e.value.InstanceValue?
    ensures var once := EnrichElement(WriteElementRow(WriteInstanceRow(s, e), e), Str(e.key),
                                      Str(e.value.processDefinitionKey), e.value.elementId, parse);
            WriteElementRow(WriteInstanceRow(once.store, e), e) == once.store
  {
    if IsRootElement(e.value) {
      HandledInstanceRowAbsorbs(s, e, parse);
    }
    if HasElementRow(e.value) {
      HandledElementRowAbsorbs(s, e, parse);
    }
    RowsNoop(EnrichElement(WriteElementRow(WriteInstanceRow(s, e), e), Str(e.key),
                           Str(e.value.processDefinitionKey), e.value.elementId, parse).store, e);
  }

  lemma {:induction false} ProcessInstanceIdempotent(s: Store, e: Event, parse: string -> Option<Doc>)
    ensures HandleProcessInstance(HandleProcessInstance(s, e, parse).store, e, parse) == HandleProcessInstance(s, e, parse)
  {
    if e.value.InstanceValue? {
      InstanceRowsAbsorbed(s, e, parse);
      EnrichElementIdempotent(WriteElementRow(WriteInstanceRow(s, e), e), Str(e.key),
                              Str(e.value.processDefinitionKey), e.value.elementId, parse);
    }
  }

  lemma JobIdempotent(s: Store, e: Event)
    ensures HandleJob(HandleJob(s, e).store, e) == HandleJob(s, e)
  {
    if e.value.JobValue? {
      UpsertIdempotent(s.jobs, Str(e.key), JobInitOf(e.value), JobSetOf(e), e.timestamp);
    }
  }

  lemma DecisionRequirementsIdempotent(s: Store, e: Event)
    ensures HandleDecisionRequirements(HandleDecisionRequirements(s, e).store, e) == HandleDecisionRequirements(s, e)
  {
  }

  lemma DecisionIdempotent(s: Store, e: Event)
    ensures HandleDecision(HandleDecision(s, e).store, e) == HandleDecision(s, e)
  {
  }

  lemma DecisionEvaluationIdempotent(s: Store, e: Event)
    ensures HandleDecisionEvaluation(HandleDecisionEvaluation(s, e).store, e) == HandleDecisionEvaluation(s, e)
  {
  }

  lemma VariableIdempotent(s: Store, e: Event)
    ensures HandleVariable(HandleVariable(s, e).store, e) == HandleVariable(s, e)
  {
  }

  lemma IncidentIdempotent(s: Store, e: Event)
    ensures HandleIncident(HandleIncident(s, e).store, e) == HandleIncident(s, e)
  {
  }

  /**
   The as-written variable handler does not absorb a replay: the first
   delivery stores the value, the redelivery overwrites it with the name. The
   scope is a nested one, whose identity conflicts in the store.
   */
  lemma VariableAsWrittenReplayStoresName(s: Store, e: Event)
    requires e.value.VariableValue? && VariableIdOf(e.value) !in s.variables
    requires e.value.scopeKey != e.value.processInstanceKey && e.value.scopeKey != -1
    requires e.value.name != e.value.value
    ensures var id := VariableIdOf(e.value);
            var once := HandleVariableAsWritten(s, e).store;
            var twice := HandleVariableAsWritten(once, e).store;
            && once.variables[id].rewritten.value == e.value.value
            && twice.variables[id].rewritten.value == e.value.name
            && twice != once
  {
  }

  /** The corrected variable handler differs from the as-written one only in the `value` column of the row it writes. */
  lemma VariableFixChangesOnlyValue(s: Store, e: Event)
    requires e.value.VariableValue?
    ensures var id := VariableIdOf(e.value);
            var written := HandleVariableAsWritten(s, e).store;
            var fixed := HandleVariable(s, e).store;
            && written == fixed.(variables := written.variables)
            && written.variables.Keys == fixed.variables.Keys
            && (forall j :: j in fixed.variables && j != id ==> written.variables[j] == fixed.variables[j])
            && written.variables[id] == fixed.variables[id].(rewritten := fixed.variables[id].rewritten.(value := written.variables[id].rewritten.value))
  {
    var v := e.value;
    var id := VariableIdOf(v);
    var init := VariableInit(Str(v.processDefinitionKey));
    var ra := Upsert(s.variables, id, init, VariableSet(v.value, e.intent), VariableSet(v.name, e.intent), e.timestamp);
    var rb := Upsert(s.variables, id, init, VariableSet(v.value, e.intent), VariableSet(v.value, e.intent), e.timestamp);
    assert HandleVariableAsWritten(s, e).store == s.(variables := ra);
    assert HandleVariable(s, e).store == s.(variables := rb);
    UpsertConflictOnly(s.variables, id, init, VariableSet(v.value, e.intent), VariableSet(v.name, e.intent),
                       VariableSet(v.value, e.intent), e.timestamp);
  }

  /**
   A completed instance row is cleared again by any later non-completing
   event on the same instance: `completed` follows the latest intent.
   */
  lemma InstanceCompletionCanBeCleared(s: Store, e1: Event, e2: Event, parse: string -> Option<Doc>)
    requires e1.value.InstanceValue? && IsRootElement(e1.value)
    requires e2.value.InstanceValue? && IsRootElement(e2.value)
    requires e1.key == e2.key && e1.intent == ElementCompleted && e2.intent != ElementCompleted
    requires e1.timestamp <= e2.timestamp && NotOlder(s.instances, Str(e1.key), e1.timestamp)
    ensures var once := HandleProcessInstance(s, e1, parse).store;
            var twice := HandleProcessInstance(once, e2, parse).store;
            && once.instances[Str(e1.key)].rewritten.completed == Some(e1.timestamp)
            && twice.instances[Str(e1.key)].rewritten.completed == None
  {
  }

  /**
   Two job events on one job with different timestamps converge: in either
   delivery order the later event's SET columns and timestamp are stored, and
   when the job row already existed the two stores are identical.
   */
  lemma JobLaterWins(s: Store, e1: Event, e2: Event)
    requires e1.value.JobValue? && e2.value.JobValue? && e1.key == e2.key
    requires e1.timestamp < e2.timestamp
    ensures var k := Str(e1.key);
            var inOrder := HandleJob(HandleJob(s, e1).store, e2).store;
            var reversed := HandleJob(HandleJob(s, e2).store, e1).store;
            && inOrder.jobs[k].rewritten == reversed.jobs[k].rewritten
            && inOrder.jobs[k].updated == reversed.jobs[k].updated
            && (NotOlder(s.jobs, k, e2.timestamp) ==>
                  var v := e2.value;
                  && inOrder.jobs[k].rewritten ==
                       JobSet(v.variablesJson, v.worker, v.errorCode, v.errorMessage, e2.intent, v.retryBackoff,
                              v.recurringTime, v.retries, v.deadline,
                              if e2.intent == JobCompleted && e2.timestamp > 0 then Some(e2.timestamp) else None)
                  && inOrder.jobs[k].updated == e2.timestamp)
            && (k in s.jobs ==> inOrder == reversed)
  {
    var k := Str(e1.key);
    UpsertLaterWins(s.jobs, k, JobInitOf(e1.value), JobSetOf(e1), e1.timestamp, JobInitOf(e2.value), JobSetOf(e2), e2.timestamp);
  }

  /** A form-key header ending in a non-empty colon-free segment refers to that segment. */
  lemma JobFormIsLastSegment(prefix: string, segment: string)
    requires segment != "" && ':' !in segment
    ensures JobForm(map[FormKeyHeader := prefix + ":" + segment]) == Some(segment)
  {
    var h := prefix + ":" + segment;
    var r := JobForm(map[FormKeyHeader := h]);
    assert h[|h| - 1] == segment[|segment| - 1];
    if |r.value| < |segment| {
      assert false;
    } else if |r.value| > |segment| {
      ColonInLongerSuffix(h, |r.value|, |segment|);
      assert false;
    }
    assert h[|h| - |segment|..] == segment;
  }

  /** The form a job refers to for the header value `camunda-forms:bpmn:myForm:1` is `1`. */
  lemma JobFormExample()
    ensures JobForm(map[FormKeyHeader := "camunda-forms:bpmn:myForm:1"]) == Some("1")
  {
    assert "camunda-forms:bpmn:myForm:1" == "camunda-forms:bpmn:myForm" + ":" + "1";
    JobFormIsLastSegment("camunda-forms:bpmn:myForm", "1");
  }
}

=== FILE: router.dfy ===
/**
 Dispatch of an event to its projection handler by category, and the
 mapping from a stream name to the category it carries.
 */
module Router {
  import opened Wrappers
  import opened Schema
  import opened Events
  import opened Bpmn
  import opened Handlers
  import opened Replay
  import opened Subscriptions

  /**
   `handle_zeebe_event`: the handler of the event's category, with the
   variable handler as written; an event of any other category is ignored.
   */
  function HandleZeebeEvent(s: Store, category: string, e: Event, parse: string -> Option<Doc>): (r: Outcome)
    ensures category !in Categories ==> r == Handled(s)
    ensures r.Faulted? ==> category in Categories
    ensures category == "process" ==> r.store == s.(processes := r.store.processes, forms := r.store.forms)
    ensures category == "process_instance" ==> r.store == s.(instances := r.store.instances, elements := r.store.elements)
    ensures category == "job" ==> r.store == s.(jobs := r.store.jobs)
    ensures category == "decision_requirements" ==> r.store == s.(requirements := r.store.requirements)
    ensures category == "decision" ==> r.store == s.(decisions := r.store.decisions)
    ensures category == "decision_evaluation" ==> r.store == s.(evaluations := r.store.evaluations)
    ensures category == "variable" ==> r.store == s.(variables := r.store.variables)
    ensures category == "incident" ==> r.store == s.(incidents := r.store.incidents)
  {
    if category == "process" then HandleProcess(s, e, parse)
    else if category == "process_instance" then HandleProcessInstance(s, e, parse)
    else if category == "job" then HandleJob(s, e)
    else if category == "decision_requirements" then HandleDecisionRequirements(s, e)
    else if category == "decision" then HandleDecision(s, e)
    else if category == "decision_evaluation" then HandleDecisionEvaluation(s, e)
    else if category == "variable" then HandleVariableAsWritten(s, e)
    else if category == "incident" then HandleIncident(s, e)
    else Handled(s)
  }

  /**
   A redelivered event of any category but `variable` leaves the store and
   the outcome as the first delivery did.
   */
  lemma {:induction false} RouteIdempotent(s: Store, category: string, e: Event, parse: string -> Option<Doc>)
    ensures var once := HandleZeebeEvent(s, category, e, parse);
            category != "variable" ==> HandleZeebeEvent(once.store, category, e, parse) == once
  {
    if category == "process" { ProcessIdempotent(s, e, parse); }
    else if category == "process_instance" { ProcessInstanceIdempotent(s, e, parse); }
    else if category == "job" { JobIdempotent(s, e); }
    else if category == "decision_requirements" { DecisionRequirementsIdempotent(s, e); }
    else if category == "decision" { DecisionIdempotent(s, e); }
    else if category == "decision_evaluation" { DecisionEvaluationIdempotent(s, e); }
    else if category == "incident" { IncidentIdempotent(s, e); }
  }

  /**
   The dispatcher does not absorb a redelivered variable event: for a new
   variable of a nested scope, the second delivery replaces the stored value
   with the variable's name.
   */
  lemma RouteVariableReplayStoresName(s: Store, e: Event, parse: string -> Option<Doc>)
    requires e.value.VariableValue? && VariableIdOf(e.value) !in s.variables
    requires e.value.scopeKey != e.value.processInstanceKey && e.value.scopeKey != -1
    requires e.value.name != e.value.value
    ensures var once := HandleZeebeEvent(s, "variable", e, parse);
            var twice := HandleZeebeEvent(once.store, "variable", e, parse);
            twice.store != once.store
  {
    VariableAsWrittenReplayStoresName(s, e);
  }

  /** The dispatch with the variable handler's conflict clause corrected. */
  function HandleZeebeEventCorrected(s: Store, category: string, e: Event, parse: string -> Option<Doc>): (r: Outcome)
    ensures category != "variable" ==> r == HandleZeebeEvent(s, category, e, parse)
    ensures var written := HandleZeebeEvent(s, category, e, parse);
            r.Faulted? == written.Faulted? && written.store == r.store.(variables := written.store.variables)
  {
    if category == "variable" then HandleVariable(s, e) else HandleZeebeEvent(s, category, e, parse)
  }

  /** With the corrected variable handler, a redelivered event of every category is absorbed. */
  lemma {:induction false} RouteCorrectedIdempotent(s: Store, category: string, e: Event, parse: string -> Option<Doc>)
    ensures var once := HandleZeebeEventCorrected(s, category, e, parse);
            HandleZeebeEventCorrected(once.store, category, e, parse) == once
  {
    if category == "variable" {
      VariableIdempotent(s, e);
    } else {
      RouteIdempotent(s, category, e, parse);
    }
  }
}

=== FILE: schema.dfy ===
/**
 The relational projection: one map per table from the row's identity to its
 columns, and the conditional write every handler performs,
 `INSERT ... ON CONFLICT DO UPDATE SET ... WHERE updated <= excluded.updated`.

 Timestamps are natural numbers. The store keeps them in TEXT columns and the
 guard compares strings; for epoch-millisecond values of equal digit length the
 two orders agree, which the model assumes.
 */
module Schema {
  import opened Wrappers

  /**
   A timestamped row. `inserted` holds the columns only the INSERT writes (the
   conflict clause never touches them), `rewritten` the columns the
   `ON CONFLICT DO UPDATE SET` clause rewrites apart from `updated`.
   */
  datatype Row<I, S> = Row(inserted: I, rewritten: S, created: nat, updated: nat)

  function Max(a: nat, b: nat): nat {
    if a < b then b else a
  }

  /** Only the entry under `k` may differ, and `k` is present afterwards. */
  ghost predicate OnlyKeyChanged<K, V>(before: map<K, V>, after: map<K, V>, k: K) {
    && after.Keys == before.Keys + {k}
    && forall j :: j in before && j != k ==> after[j] == before[j]
  }

  /** The write for `k` goes through: the identity is new, or its stored row is not newer. */
  ghost predicate NotOlder<K, I, S>(t: map<K, Row<I, S>>, k: K, ts: nat) {
    k !in t || t[k].updated <= ts
  }

  /**
   `after` is `before` with one upsert-if-not-older applied under `k`: a new
   identity gets the whole row; a stored row newer than `ts` stays as it is;
   otherwise only the SET columns and `updated` change, and the insert-only
   columns and `created` are never rewritten.
   */
  ghost predicate GuardedWrite<K, I, S>(before: map<K, Row<I, S>>, after: map<K, Row<I, S>>, k: K, ts: nat, init: I, cols: S) {
    && OnlyKeyChanged(before, after, k)
    && (k !in before ==> after[k] == Row(init, cols, ts, ts))
    && (k in before ==> after[k].inserted == before[k].inserted && after[k].created == before[k].created)
    && (k in before && ts < before[k].updated ==> after[k] == before[k])
    && (k in before && before[k].updated <= ts ==> after[k].rewritten == cols && after[k].updated == ts)
  }

  /**
   Upsert-if-not-older. `values` are the SET-column parameters of the INSERT,
   `setTo` those of the conflict clause; the unqualified `updated` of the
   guard is the stored row's.
   */
  function Upsert<K, I, S>(t: map<K, Row<I, S>>, k: K, init: I, values: S, setTo: S, ts: nat)
    : (r: map<K, Row<I, S>>)
    ensures OnlyKeyChanged(t, r, k)
    ensures k !in t ==> r[k] == Row(init, values, ts, ts)
    ensures k in t ==> r[k].inserted == t[k].inserted && r[k].created == t[k].created
    ensures k in t ==> r[k].updated == Max(t[k].updated, ts)
    ensures k in t ==> r[k].rewritten == (if t[k].updated <= ts then setTo else t[k].rewritten)
  {
    if k !in t then t[k := Row(init, values, ts, ts)]
    else if t[k].updated <= ts then t[k := t[k].(rewritten := setTo, updated := ts)]
    else t
  }

  /**
   Row `k` is stored and is either newer than `ts` or already carries `cols`
   at `ts`: writing `cols` at `ts` again finds nothing to change.
   */
  ghost predicate Absorbs<K, I, S>(t: map<K, Row<I, S>>, k: K, ts: nat, cols: S) {
    k in t && ts <= t[k].updated && (t[k].updated == ts ==> t[k].rewritten == cols)
  }

  /** A guarded write leaves a row that absorbs the same write. */
  lemma GuardedWriteAbsorbs<K, I, S>(before: map<K, Row<I, S>>, after: map<K, Row<I, S>>, k: K, ts: nat, init: I, cols: S)
    requires GuardedWrite(before, after, k, ts, init, cols)
    ensures Absorbs(after, k, ts, cols)
  {
  }

  /** A stored row the same write would leave exactly as it is. */
  lemma UpsertStable<K, I, S>(t: map<K, Row<I, S>>, k: K, init: I, values: S, setTo: S, ts: nat)
    requires Absorbs(t, k, ts, setTo)
    ensures Upsert(t, k, init, values, setTo, ts) == t
  {
  }

  /**
   Two writes that differ only in the conflict clause's parameters produce
   tables that differ at most in the SET columns of row `k`.
   */
  lemma UpsertConflictOnly<K, I, S>(t: map<K, Row<I, S>>, k: K, init: I, values: S, a: S, b: S, ts: nat)
    ensures var ra := Upsert(t, k, init, values, a, ts);
            var rb := Upsert(t, k, init, values, b, ts);
            && ra.Keys == rb.Keys
            && (forall j :: j in ra && j != k ==> ra[j] == rb[j])
            && ra[k] == rb[k].(rewritten := ra[k].rewritten)
            && (k !in t || t[k].updated > ts ==> ra[k] == rb[k])
  {
  }

  /** Replaying a write whose two parameter lists agree changes nothing. */
  lemma UpsertIdempotent<K, I, S>(t: map<K, Row<I, S>>, k: K, init: I, cols: S, ts: nat)
    ensures var once := Upsert(t, k, init, cols, cols, ts);
            Upsert(once, k, init, cols, cols, ts) == once
  {
    UpsertStable(Upsert(t, k, init, cols, cols, ts), k, init, cols, cols, ts);
  }

  /**
   Two writes to one identity with different timestamps: whichever arrives
   first, the later one's SET columns and timestamp end up stored.
   */
  lemma UpsertLaterWins<K, I, S>(t: map<K, Row<I, S>>, k: K, i1: I, s1: S, t1: nat, i2: I, s2: S, t2: nat)
    requires t1 < t2
    ensures var inOrder := Upsert(Upsert(t, k, i1, s1, s1, t1), k, i2, s2, s2, t2);
            var reversed := Upsert(Upsert(t, k, i2, s2, s2, t2), k, i1, s1, s1, t1);
            && inOrder.Keys == reversed.Keys
            && (forall j :: j in inOrder && j != k ==> inOrder[j] == reversed[j])
            && inOrder[k].rewritten == reversed[k].rewritten
            && inOrder[k].updated == reversed[k].updated
            && (k !in t || t[k].updated <= t2 ==> inOrder[k].rewritten == s2 && inOrder[k].updated == t2)
            && (k in t ==> inOrder == reversed)
  {
  }

  datatype ProcessInit = ProcessInit(bpmnProcessId: string, bpmnProcessName: Option<string>)
  datatype ProcessSet = ProcessSet(version: int, resourceName: string, resource: string, state: string)

  /** Keyed by the form id, which the table declares UNIQUE on its own. */
  datatype FormRow = FormRow(processDefinition: string, schema: string)

  datatype InstanceInit = InstanceInit(
    processDefinition: string,
    parentProcessInstance: Option<string>,
    parentElementInstance: Option<string>)
  datatype InstanceSet = InstanceSet(state: string, completed: Option<nat>)

  datatype ElementInit = ElementInit(
    processInstance: string,
    elementId: string,
    elementName: string,
    bpmnElementType: string)
  datatype ElementSet = ElementSet(flowScopeKey: string, state: string, completed: Option<nat>)

  datatype JobInit = JobInit(
    jobType: string,
    processInstance: string,
    processDefinition: string,
    elementInstance: string,
    customHeaders: string,
    form: Option<string>)
  datatype JobSet = JobSet(
    variables: string,
    worker: string,
    errorCode: string,
    errorMessage: string,
    state: string,
    retryBackoff: int,
    recurringTime: int,
    retries: int,
    deadline: int,
    completed: Option<nat>)

  /** For tables whose conflict clause rewrites every column but the key and `created`. */
  datatype NoColumns = NoColumns

  datatype RequirementsSet = RequirementsSet(
    decisionRequirementsId: string,
    decisionRequirementsName: string,
    version: int,
    resource: string,
    resourceName: string,
    state: string)

  datatype DecisionSet = DecisionSet(
    decisionId: string,
    decisionName: string,
    decisionRequirements: string,
    version: int,
    state: string)

  datatype EvaluationInit = EvaluationInit(
    processInstance: string,
    processDefinition: string,
    elementInstance: string,
    decisionRequirements: string,
    decision: string)
  datatype EvaluationSet = EvaluationSet(
    decisionOutput: string,
    evaluatedDecisions: string,
    state: string,
    completed: Option<nat>)

  /** The variable table's primary key; a NULL scope is the instance-level scope. */
  datatype VariableId = VariableId(name: string, processInstance: string, flowScope: Option<string>)
  datatype VariableInit = VariableInit(processDefinition: string)
  datatype VariableSet = VariableSet(value: string, state: string)

  datatype IncidentInit = IncidentInit(
    job: Option<string>,
    processInstance: string,
    processDefinition: string,
    elementInstance: string,
    elementId: string)
  datatype IncidentSet = IncidentSet(
    errorMessage: string,
    errorType: string,
    state: string,
    completed: Option<nat>)

  /** The ten tables; rows are keyed by their `key` column unless noted. */
  datatype Store = Store(
    processes: map<string, Row<ProcessInit, ProcessSet>>,
    forms: map<string, FormRow>,
    instances: map<string, Row<InstanceInit, InstanceSet>>,
    elements: map<string, Row<ElementInit, ElementSet>>,
    jobs: map<string, Row<JobInit, JobSet>>,
    requirements: map<string, Row<NoColumns, RequirementsSet>>,
    decisions: map<string, Row<NoColumns, DecisionSet>>,
    evaluations: map<string, Row<EvaluationInit, EvaluationSet>>,
    variables: map<VariableId, Row<VariableInit, VariableSet>>,
    incidents: map<string, Row<IncidentInit, IncidentSet>>)

  const EmptyStore := Store(map[], map[], map[], map[], map[], map[], map[], map[], map[], map[])
}

=== FILE: subscriptions.dfy ===
/**
 The streams the consumer subscribes to and the event category each carries.
 */
module Subscriptions {
  import opened Text

  /** The categories the dispatcher knows, one per handler. */
  const Categories: seq<string> := [
    "process", "process_instance", "job", "decision_requirements",
    "decision", "decision_evaluation", "variable", "incident"]

  /** The streams the consumer subscribes to. */
  const Streams: seq<string> := [
    "zeebe:DECISION", "zeebe:DECISION_EVALUATION", "zeebe:DECISION_REQUIREMENTS", "zeebe:INCIDENT",
    "zeebe:JOB", "zeebe:PROCESS", "zeebe:PROCESS_INSTANCE", "zeebe:VARIABLE"]

  /** The category of a stream: everything after its first colon, lower-cased. */
  function StreamCategory(name: string): (r: string)
    ensures ':' !in name ==> r == Lower(name)
    ensures ':' in name ==> var n := |name| - |r|;
                            && 0 < n <= |name| && name[n - 1] == ':' && ':' !in name[..n - 1]
                            && r == Lower(name[n..])
  {
    Lower(AfterFirstColon(name))
  }

  /** The category of `zeebe:X` is `X` lower-cased, whatever colons `X` holds. */
  lemma ZeebeStreamCategory(x: string)
    ensures StreamCategory("zeebe:" + x) == Lower(x)
  {
    var s := "zeebe:" + x;
    var r := AfterFirstColon(s);
    var p := |s| - |r| - 1;
    assert s[5] == ':';
    assert p == 5;
  }

  /** The upper-case suffixes of the subscribed streams, in order. */
  const StreamSuffixes: seq<string> := [
    "DECISION", "DECISION_EVALUATION", "DECISION_REQUIREMENTS", "INCIDENT",
    "JOB", "PROCESS", "PROCESS_INSTANCE", "VARIABLE"]

  /** Every subscribed stream is `zeebe:` followed by its suffix. */
  lemma StreamsAreZeebeSuffixes()
    ensures |Streams| == |StreamSuffixes|
    ensures forall i :: 0 <= i < |Streams| ==> Streams[i] == "zeebe:" + StreamSuffixes[i]
  {
    assert Streams[0] == "zeebe:" + StreamSuffixes[0];
    assert Streams[1] == "zeebe:" + StreamSuffixes[1];
    assert Streams[2] == "zeebe:" + StreamSuffixes[2];
    assert Streams[3] == "zeebe:" + StreamSuffixes[3];
    assert Streams[4] == "zeebe:" + StreamSuffixes[4];
    assert Streams[5] == "zeebe:" + StreamSuffixes[5];
    assert Streams[6] == "zeebe:" + StreamSuffixes[6];
    assert Streams[7] == "zeebe:" + StreamSuffixes[7];
  }

  /** Lower-casing the suffixes gives the categories the streams carry, in stream order. */
  lemma LowerSuffixes()
    ensures seq(|StreamSuffixes|, i requires 0 <= i < |StreamSuffixes| => Lower(StreamSuffixes[i])) == StreamCategories
  {
    assert Lower(StreamSuffixes[0]) == "decision";
    assert Lower(StreamSuffixes[1]) == "decision_evaluation";
    assert Lower(StreamSuffixes[2]) == "decision_requirements";
    assert Lower(StreamSuffixes[3]) == "incident";
    assert Lower(StreamSuffixes[4]) == "job";
    assert Lower(StreamSuffixes[5]) == "process";
    assert Lower(StreamSuffixes[6]) == "process_instance";
    assert Lower(StreamSuffixes[7]) == "variable";
  }

  /** The category each subscribed stream carries. */
  lemma StreamCategoriesAre()
    ensures |Streams| == |StreamCategories|
    ensures forall i :: 0 <= i < |Streams| ==> StreamCategory(Streams[i]) == StreamCategories[i]
  {
    StreamsAreZeebeSuffixes();
    LowerSuffixes();
    forall i | 0 <= i < |Streams|
      ensures StreamCategory(Streams[i]) == Lower(StreamSuffixes[i])
    {
      ZeebeStreamCategory(StreamSuffixes[i]);
    }
  }

  /** The categories of the subscribed streams, in subscription order. */
  const StreamCategories: seq<string> := [
    "decision", "decision_evaluation", "decision_requirements", "incident",
    "job", "process", "process_instance", "variable"]

  /** No two of the subscribed streams' categories coincide. */
  lemma StreamCategoriesDistinct()
    ensures forall i, j :: 0 <= i < j < |StreamCategories| ==> StreamCategories[i] != StreamCategories[j]
  {
    forall i, j | 0 <= i < j < |StreamCategories|
      ensures StreamCategories[i] != StreamCategories[j]
    {
      if |StreamCategories[i]| == |StreamCategories[j]| {
        assert StreamCategories[i][0] != StreamCategories[j][0];
      }
    }
  }

  /** Names whose categories are the subscribed streams' categories carry only known categories. */
  lemma KnownByCategories(names: seq<string>)
    requires |names| == |StreamCategories|
    requires forall i :: 0 <= i < |names| ==> StreamCategory(names[i]) == StreamCategories[i]
    ensures forall i :: 0 <= i < |names| ==> StreamCategory(names[i]) in Categories
  {
    forall i | 0 <= i < |names|
      ensures StreamCategory(names[i]) in Categories
    {
      if i == 0 {
        assert StreamCategories[0] == Categories[4];
      } else if i == 1 {
        assert StreamCategories[1] == Categories[5];
      } else if i == 2 {
        assert StreamCategories[2] == Categories[3];
      } else if i == 3 {
        assert StreamCategories[3] == Categories[7];
      } else if i == 4 {
        assert StreamCategories[4] == Categories[2];
      } else if i == 5 {
        assert StreamCategories[5] == Categories[0];
      } else if i == 6 {
        assert StreamCategories[6] == Categories[1];
      } else {
        assert StreamCategories[7] == Categories[6];
      }
    }
  }

  /** Names whose categories are the subscribed streams' categories carry every known category. */
  lemma CoverByCategories(names: seq<string>)
    requires |names| == |StreamCategories|
    requires forall i :: 0 <= i < |names| ==> StreamCategory(names[i]) == StreamCategories[i]
    ensures forall c :: c in Categories ==> exists i :: 0 <= i < |names| && StreamCategory(names[i]) == c
  {
    forall c | c in Categories
      ensures exists i :: 0 <= i < |names| && StreamCategory(names[i]) == c
    {
      if c == Categories[0] {
        assert StreamCategory(names[5]) == c;
      } else if c == Categories[1] {
        assert StreamCategory(names[6]) == c;
      } else if c == Categories[2] {
        assert StreamCategory(names[4]) == c;
      } else if c == Categories[3] {
        assert StreamCategory(names[2]) == c;
      } else if c == Categories[4] {
        assert StreamCategory(names[0]) == c;
      } else if c == Categories[5] {
        assert StreamCategory(names[1]) == c;
      } else if c == Categories[6] {
        assert StreamCategory(names[7]) == c;
      } else {
        assert StreamCategory(names[3]) == c;
      }
    }
  }

  /** Each subscribed stream carries a different known category, and every known category has its stream. */
  lemma StreamsCoverCategories()
    ensures |Streams| == |Categories|
    ensures forall i :: 0 <= i < |Streams| ==> StreamCategory(Streams[i]) in Categories
    ensures forall c :: c in Categories ==> exists i :: 0 <= i < |Streams| && StreamCategory(Streams[i]) == c
    ensures forall i, j :: 0 <= i < j < |Streams| ==> StreamCategory(Streams[i]) != StreamCategory(Streams[j])
  {
    StreamCategoriesAre();
    StreamCategoriesDistinct();
    KnownByCategories(Streams);
    CoverByCategories(Streams);
  }
}

=== FILE: text.dfy ===
/**
 The few pieces of Python string behaviour the importer relies on:
 `str` of an integer, `maybe_str`, `rsplit(":", 1)[-1]`, `split(":", 1)[-1]`
 and `lower`, plus the truthiness of a possibly-None string.
 */
module Text {
  import opened Wrappers

  predicate IsDigit(c: char) {
    '0' <= c <= '9'
  }

  function DigitChar(d: nat): (c: char)
    requires d < 10
    ensures IsDigit(c)
  {
    ('0' as int + d) as char
  }

  function DigitValue(c: char): nat {
    if IsDigit(c) then c as int - '0' as int else 0
  }

  /** Decimal digits of a natural number, most significant first, no leading zeros. */
  function Digits(n: nat): (r: string)
    ensures |r| > 0
    ensures forall i :: 0 <= i < |r| ==> IsDigit(r[i])
    decreases n
  {
    if n < 10 then [DigitChar(n)] else Digits(n / 10) + [DigitChar(n % 10)]
  }

  /** Python's `str(x)` for an `int`. */
  function Str(x: int): (r: string)
    ensures |r| > 0
  {
    if x < 0 then "-" + Digits(-x) else Digits(x)
  }

  /** Reads a string of decimal digits back as a number. */
  function ParseDigits(s: string): nat
    decreases |s|
  {
    if |s| == 0 then 0 else 10 * ParseDigits(s[..|s| - 1]) + DigitValue(s[|s| - 1])
  }

  /** Reads a (possibly negative) decimal rendering back as an integer. */
  function ParseInt(s: string): int {
    if |s| > 0 && s[0] == '-' then -(ParseDigits(s[1..]) as int) else ParseDigits(s)
  }

  lemma {:induction false} ParseDigitsOfDigits(n: nat)
    ensures ParseDigits(Digits(n)) == n
    decreases n
  {
    if n >= 10 {
      var d := Digits(n / 10) + [DigitChar(n % 10)];
      assert d[..|d| - 1] == Digits(n / 10);
      ParseDigitsOfDigits(n / 10);
    }
  }

  /** `str` loses no information: its rendering reads back as the same integer. */
  lemma StrRoundTrip(x: int)
    ensures ParseInt(Str(x)) == x
  {
    if x < 0 {
      assert ("-" + Digits(-x))[1..] == Digits(-x);
      ParseDigitsOfDigits(-x);
    } else {
      assert IsDigit(Digits(x)[0]);
      ParseDigitsOfDigits(x);
    }
  }

  /** Two integers have the same `str` exactly when they are equal. */
  lemma StrInjective(x: int, y: int)
    ensures Str(x) == Str(y) <==> x == y
  {
    StrRoundTrip(x);
    StrRoundTrip(y);
  }

  /** `maybe_str`: the sentinel -1 becomes None, anything else its decimal string. */
  function MaybeStr(x: int): (r: Option<string>)
    ensures r.None? <==> x == -1
    ensures r.Some? ==> |r.value| > 0 && ParseInt(r.value) == x
  {
    if x == -1 then None else StrRoundTrip(x); Some(Str(x))
  }

  /** Python truthiness of an optional string: neither None nor empty. */
  predicate Truthy(s: Option<string>) {
    s.Some? && s.value != ""
  }

  /** `s.rsplit(":", 1)[-1]`: everything after the last colon, or all of `s` when it has none. */
  function AfterLastColon(s: string): (r: string)
    ensures |r| <= |s| && r == s[|s| - |r|..]
    ensures ':' !in r
    ensures |r| == |s| || s[|s| - |r| - 1] == ':'
    decreases |s|
  {
    if |s| == 0 || s[|s| - 1] == ':' then ""
    else
      var init := s[..|s| - 1];
      var r := AfterLastColon(init);
      assert init[|init| - |r|..] + [s[|s| - 1]] == s[|s| - |r| - 1..];
      r + [s[|s| - 1]]
  }

  /** `s.split(":", 1)[-1]`: everything after the first colon, or all of `s` when it has none. */
  function AfterFirstColon(s: string): (r: string)
    ensures ':' !in s ==> r == s
    ensures ':' in s ==> |r| < |s| && r == s[|s| - |r|..] && s[|s| - |r| - 1] == ':'
    ensures ':' in s ==> ':' !in s[..|s| - |r| - 1]
    decreases |s|
  {
    if ':' !in s then s
    else if s[0] == ':' then s[1..]
    else
      var tail := s[1..];
      assert ':' in tail by {
        var i :| 0 <= i < |s| && s[i] == ':';
        assert tail[i - 1] == ':';
      }
      var r := AfterFirstColon(tail);
      assert s[..|s| - |r| - 1] == [s[0]] + tail[..|tail| - |r| - 1];
      r
  }

  /** A suffix of `h` reaching past a colon contains it. */
  lemma ColonInLongerSuffix(h: string, n: nat, m: nat)
    requires m < n <= |h| && h[|h| - m - 1] == ':'
    ensures ':' in h[|h| - n..]
  {
    assert h[|h| - n..][n - m - 1] == ':';
  }

  function LowerChar(c: char): char {
    if 'A' <= c <= 'Z' then (c as int + 32) as char else c
  }

  /** `s.lower()` on ASCII letters. */
  function Lower(s: string): string {
    seq(|s|, i requires 0 <= i < |s| => LowerChar(s[i]))
  }
}

=== FILE: wrappers.dfy ===
/** The optional value used for SQL NULL and Python None. */
module Wrappers {

  datatype Option<+T> = None | Some(value: T) {

    /** Returns the value held in Some, or the default for None. */
    function GetOr(default: T): T {
      match this
      case Some(v) => v
      case None => default
    }
  }
}
